=== FILE: README.md ===
# Item catalog: a Dafny model

This project models the logic of a small item catalog.

The backend is an Express server over a JSON data file:
- `GET /api/items` searches the list by name and pages it.
- `GET /api/items/:id` looks an item up.
- `POST /api/items` appends an item.
- `GET /api/stats` serves the item count and the average price. The stats come from a cache that is refreshed when the file's modification time changes.

The frontend is a React app:
- A list controller (`DataProvider`) accumulates pages of the list.
- The Items page decides when to load the next page and what to render.
- The item detail page colours an avatar with a hash of the item's name.

The model is written as pure functions over immutable records. The file system, the clock and the network are parameters: the outcome of each read, stat, write or fetch is passed in. The JavaScript semantics the code relies on are modelled explicitly:
- `parseInt`, with white space, sign, the `0x` prefix and trailing text;
- the `|| default` fallback, which treats `NaN` and 0 alike;
- `slice`, with negative bounds;
- `toLowerCase` on ASCII letters;
- `includes`;
- UTF-16 code units;
- `toFixed(2)`;
- ToInt32 and the shifts of `stringToColor`.

Modules:

| module | file | models |
|---|---|---|
| `Wrappers` | wrappers.dfy | `Option` for `null`/`undefined`, `Result` for what can throw |
| `Catalog` | catalog.dfy | the item record, the list body, errors |
| `JsString` | js_string.dfy | lowercasing, `includes`, UTF-16 |
| `JsNumber` | js_number.dfy | `parseInt`, `String(n)` for integers |
| `JsSlice` | js_slice.dfy | `slice` on arrays and strings |
| `ItemsRoute` | items_route.dfy | backend/src/routes/items.js |
| `StatsCalc` | stats_calc.dfy | backend/src/utils/stats.js `calculateStats` |
| `StatsRoute` | stats_route.dfy | backend/src/routes/stats.js |
| `DataContext` | data_context.dfy | frontend/src/state/DataContext.js |
| `ItemsPage` | items_page.dfy | frontend/src/pages/Items.js |
| `ItemDetail` | item_detail.dfy | frontend/src/pages/ItemDetail.js `stringToColor`, avatar colour |
| `CatalogFlow` | catalog_flow.dfy | the Items page, the controller and the route together |

Behaviour of the code worth knowing:
- The list controller has no generation counter. A late response is applied whatever query it was sent for (`DataContext.LateResponseWins`, `DataContext.StalePageIsAppended`).
- A stats request that arrives while a refresh is marked as running does not wait for it. It gets the stats stored so far, which may be `null` (`StatsRoute.MissDuringRefreshServesCurrentData`).
- `hasMore` is computed from the page values the response echoes, not from the request's.
- `resetAndFetch` issues no request itself. The Items page's effect fetches when `q` changes.

## Model

| member | source | states |
|---|---|---|
| JsString.Lower | backend/src/routes/items.js:13-16 | lowercasing keeps the length, maps each character, and leaves no ASCII capital |
| JsString.LowerIdempotent | backend/src/routes/items.js:13-16 | lowercasing a lowered string changes nothing |
| JsString.LowerAppend | backend/src/routes/items.js:16 | lowercasing distributes over concatenation |
| JsString.Includes | backend/src/routes/items.js:16 | the empty needle is found in every string; with `JsString.IncludesIffOccurs`, `includes` holds exactly when the needle occurs |
| JsString.IncludesIffOccurs | backend/src/routes/items.js:16 | `includes` holds exactly when the needle occurs at some index |
| JsString.Utf16RoundTrip | frontend/src/pages/ItemDetail.js:12-13 | the UTF-16 code units `charCodeAt` reads decode back to the string |
| JsString.EncodeChar | frontend/src/pages/ItemDetail.js:12-13 | a character is one code unit below U+10000, otherwise a high and a low surrogate |
| JsString.Utf16 | frontend/src/pages/ItemDetail.js:12 | `length` is between the number of characters and twice that |
| JsNumber.TrimStart | backend/src/routes/items.js:20-21 | `parseInt` drops exactly the leading white space |
| JsNumber.DigitRun | backend/src/routes/items.js:20-21 | `parseInt` reads the longest prefix of digits of the radix |
| JsNumber.Digits | frontend/src/state/DataContext.js:17 | `String(n)` is nonempty decimal digits without a leading zero whose value is n |
| JsNumber.ParseInt | backend/src/routes/items.js:20-21 | `parseInt` trims white space, takes one sign, strips `0x` only without a radix, and reads the leading digits, `NaN` when there are none; its properties are `JsNumber.ParseIntReadsDecimalString`, `JsNumber.ParseIntSkipsWhiteSpace` and the examples below |
| JsNumber.ParseIntReadsDecimalString | backend/src/routes/items.js:20-21 | `parseInt` reads back `String(n)`, also when non-digit text follows it |
| JsNumber.ParseIntSkipsWhiteSpace | backend/src/routes/items.js:20-21 | leading white space does not change what `parseInt` reads |
| JsNumber.ParseIntHexWithoutRadix | backend/src/routes/items.js:42 | without a radix, "0x1A" reads as 26 |
| JsNumber.ParseIntDecimalStopsAtX | backend/src/routes/items.js:20 | with radix 10, "0x1A" reads as 0 |
| JsNumber.ParseIntSignAndTrailingText | backend/src/routes/items.js:20 | " -42px" reads as -42 |
| JsNumber.ParseIntNoLeadingDigit | backend/src/routes/items.js:20-21 | text that is empty or starts with something other than white space, a sign or a decimal digit is `NaN`, with or without a radix |
| JsNumber.ParseIntNoDigits | backend/src/routes/items.js:20-21 | two instances: "abc" with radix 10 and "" without a radix are `NaN` |
| JsSlice.RelativeIndex | backend/src/routes/items.js:25 | a `slice` bound counts from the end when negative and is clamped to the length |
| JsSlice.Slice | backend/src/routes/items.js:25 | with bounds 0 <= start <= end, `slice` is the subsequence between them, clamped to the length |
| JsSlice.SliceFromEnd | frontend/src/pages/ItemDetail.js:17 | `slice(-k)` is the last k elements, or the whole of a shorter sequence |
| ItemsRoute.SearchTerm | backend/src/routes/items.js:13 | an absent or empty `q` is the empty term, any other is lowercased; `ItemsRoute.SearchIsFilter` shows the empty term filters nothing out |
| ItemsRoute.KeepMatching | backend/src/routes/items.js:14-18 | the filter keeps exactly the items whose lowered name contains the term, and no others |
| ItemsRoute.KeepMatchingAppend | backend/src/routes/items.js:15-17 | filtering distributes over concatenation, so the matches keep their order |
| ItemsRoute.KeepMatchingEmptyTerm | backend/src/tests/items.test.js:25-32 | the empty term keeps every item |
| ItemsRoute.Search | backend/src/routes/items.js:14-18 | the filter is applied only to a non-empty term; `ItemsRoute.SearchIsFilter` proves this equals filtering |
| ItemsRoute.SearchIsFilter | backend/src/routes/items.js:13-18 | skipping the filter for an absent or empty `q` gives the same list as filtering |
| ItemsRoute.IntParamOr | backend/src/routes/items.js:20-21 | a missing, non-numeric or zero parameter gives the default; any other number is used as parsed |
| ItemsRoute.ParamRoundTrip | backend/src/routes/items.js:21-22 | a non-zero page or limit sent by the client is the value the route uses |
| ItemsRoute.PageWindow | backend/src/routes/items.js:24-25 | `results.slice(start, start + limit)` with `start = (page-1)*limit`, for any integers; `ItemsRoute.PageWindowIsRange` states the range it is |
| ItemsRoute.PageWindowIsRange | backend/src/routes/items.js:24-25 | for positive page and limit, the page is the results from `(page-1)*limit`, at most `limit` of them |
| ItemsRoute.ListItems | backend/src/routes/items.js:8-36 | a read failure is passed on; otherwise `total` is the number of matches, `page`/`pageSize` are the parsed values, and `items` is that page of the matches, at most `pageSize` long |
| ItemsRoute.ListItemsDefaults | backend/src/routes/items.js:20-21 | missing, non-numeric or zero `page`/`limit` give page 1 of 10 |
| ItemsRoute.PagesArePrefix | backend/src/routes/items.js:24-25 | pages 1 to k together are the first k*limit results, nothing repeated or skipped |
| ItemsRoute.NegativeLimitDropsLastMatch | backend/src/routes/items.js:21-25 | `limit=-1` is accepted and returns every match but the last, with `pageSize` -1 |
| ItemsRoute.NoParametersGiveFirstTen | backend/src/tests/items.test.js:25-32 | with no parameters, the first ten items come back as page 1 of 10, with the full count as total |
| ItemsRoute.LimitGivesFirstItems | backend/src/tests/items.test.js:34-42 | `limit=n` alone returns the first n items as page 1 of n, with the full count as total |
| ItemsRoute.ParsedId | backend/src/routes/items.js:42 | the id is `parseInt` with no radix, so `0x` text is hexadecimal and `NaN` matches no id (`ItemsRoute.NaNIdIsNotFound`) |
| ItemsRoute.FindById | backend/src/routes/items.js:42 | `find` gives the first index whose id matches, or nothing when none does |
| ItemsRoute.GetItem | backend/src/routes/items.js:39-52 | a found item is the first with the parsed id; a miss is status 404 "Item not found" and no item has the id |
| ItemsRoute.LookupFindsFirstWithId | backend/src/tests/items.test.js:52-56 | looking up the decimal id of an item returns the first item with that id |
| ItemsRoute.LookupMissingIsNotFound | backend/src/tests/items.test.js:58-63 | looking up an id no item has is a 404 "Item not found" |
| ItemsRoute.NaNIdIsNotFound | backend/src/routes/items.js:42-47 | an id that `parseInt` reads as `NaN` equals no item's id, so the answer is 404 "Item not found" whatever the data |
| ItemsRoute.CreateItem | backend/src/routes/items.js:55-67 | the body gets the clock value as id and is appended last; earlier items are unchanged; read and write failures are passed on |
| ItemsRoute.CreatedItemIsFound | backend/src/routes/items.js:42-62 | a created item is found by its new id unless an older item had that id |
| StatsCalc.RoundHundredths | backend/src/utils/stats.js:18 | `parseFloat(x.toFixed(2))` is a multiple of 0.01 within 0.005 of x, an exact half goes to the larger magnitude, the sign is kept, and x itself comes back from 1e21 up |
| StatsCalc.RoundIsNearest | backend/src/utils/stats.js:18 | no multiple of 0.01 is nearer to x than the rounded value |
| StatsCalc.RoundKeepsHundredths | backend/src/utils/stats.js:18 | a value with two decimals is left unchanged |
| StatsCalc.RoundIdempotent | backend/src/utils/stats.js:18 | rounding twice is rounding once |
| StatsCalc.RoundOdd | backend/src/utils/stats.js:18 | rounding commutes with negation |
| StatsCalc.RoundHalvesAwayFromZero | backend/src/utils/stats.js:18 | halves round away from zero: 0.125 gives 0.13 and -0.125 gives -0.13 |
| StatsCalc.RoundMonotone | backend/src/utils/stats.js:18 | rounding preserves order, for all reals: negative ones and those from 1e21 up included |
| StatsCalc.CalculateStats | backend/src/utils/stats.js:4-20 | `null` or empty gives total 0 and average 0; otherwise total is the count, and the average is the hundredth nearest the mean price, a half going to the larger magnitude |
| StatsCalc.SumPrices | backend/src/utils/stats.js:13 | the left fold of `cur.price \|\| 0`; `StatsCalc.SumPricesBounds` bounds it by the count times the lowest and highest price |
| StatsCalc.SumWithoutPricesIsZero | backend/src/utils/stats.js:13 | missing prices contribute 0 |
| StatsCalc.NoPricesAverageZero | backend/src/utils/stats.js:13-18 | if every price is missing, the average is 0 |
| StatsCalc.SumPricesBounds | backend/src/utils/stats.js:13 | the sum lies between count times the lowest and count times the highest price |
| StatsCalc.AverageWithinPriceRange | backend/src/utils/stats.js:12-18 | the rounded average lies between any two-decimal lower and upper bounds of the prices (a missing price counting as 0), negative ones included |
| StatsCalc.TenAndTwentyAverageFifteen | backend/src/utils/stats.js:12-18 | prices 10 and 20 give total 2 and average 15 |
| StatsCalc.TieAverageRoundsUp | backend/src/utils/stats.js:12-18 | prices 10.00 and 10.01 average 10.005, which `toFixed(2)` rounds to 10.01 |
| StatsRoute.IsCacheValid | backend/src/routes/stats.js:41-54 | the validity check; `StatsRoute.CacheValidIff` states when it holds in both directions |
| StatsRoute.CacheValidIff | backend/src/routes/stats.js:41-54 | the cache is valid exactly when it holds stats and a time, and the lookup returns that same time; a `null` time or a throwing lookup is a miss |
| StatsRoute.RefreshStats | backend/src/routes/stats.js:16-38 | while marked as running it returns the current data unchanged; otherwise it stores and returns the stats of what it read with the time it got, or leaves data and time alone and throws; the flag is cleared on every exit of the `try` |
| StatsRoute.GetStats | backend/src/routes/stats.js:57-73 | a hit returns the cached stats without refreshing; a miss refreshes |
| StatsRoute.RefreshWithoutMtimeMisses | backend/src/routes/stats.js:27-44 | after a refresh that could not stat the file, the next request misses |
| StatsRoute.RepeatedGetHits | backend/src/routes/stats.js:46-64 | after a request that read the file or hit, the next request whose file time is unchanged since the last refresh returns the same stats without reading |
| StatsRoute.ChangedFileIsRecomputed | backend/src/routes/stats.js:46-66 | when the file's time moved, the stats of the new contents are returned |
| StatsRoute.FailedRefreshKeepsSnapshot | backend/src/routes/stats.js:16-38 | a failed read leaves the whole cache as it was and the error goes to `next` |
| StatsRoute.MissDuringRefreshServesCurrentData | backend/src/routes/stats.js:17-20 | a miss while a refresh is marked as running gets the current data, `null` before the first refresh |
| StatsRoute.ServesFreshStats | backend/src/routes/stats.js:16-73 | requests handled one at a time always get the stats of the file's current contents, as long as every write advances the modification time |
| StatsRoute.InitialServesFreshStats | backend/src/routes/stats.js:9-13 | the initial empty cache serves fresh stats from the first request on |
| StatsRoute.SameTimeWriteServesOldStats | backend/src/routes/stats.js:46-53 | a write that keeps the modification time goes unnoticed, and the old stats are served |
| DataContext.Initial | frontend/src/state/DataContext.js:6-12 | the `useState` initial values: no items, total 0, page 1 of 10, empty query, idle, more pages assumed; `DataContext.InitialClaimsMore` states what follows from them |
| DataContext.InitialClaimsMore | frontend/src/state/DataContext.js:6-14 | the initial state is an empty list with total 0 that claims more pages, so `hasMore` disagrees with the page values; its q, page and page size are the defaults `fetchItems` fills in |
| DataContext.RequestOf | frontend/src/state/DataContext.js:14 | absent arguments default to q '', page 1, limit 10 |
| DataContext.BeginFetch | frontend/src/state/DataContext.js:15 | a fetch sets `loading` and changes nothing else |
| DataContext.CompleteFetch | frontend/src/state/DataContext.js:16-37 | on success: total and page values from the response, `hasMore` iff page*pageSize < total, items replaced for page 1 and appended otherwise. On abort: only `loading` clears. On error: empty list, total 0, no more pages. `loading` is false on every path |
| DataContext.FetchItems | frontend/src/state/DataContext.js:14-38 | a settled fetch leaves `loading` false and `q` unchanged; an abort changes nothing else |
| DataContext.ResetAndFetch | frontend/src/state/DataContext.js:40-46 | empties the list, resets total, page and `hasMore`, and stores `q`; keeps `pageSize` and `loading` |
| DataContext.LaterPageExtendsList | frontend/src/state/DataContext.js:26-28 | a later page keeps the earlier items in front and adds its own after them |
| DataContext.HasMoreExamples | frontend/src/state/DataContext.js:24 | 25 items in pages of 10: more after page 1, none after page 3 |
| DataContext.AbortClearsNewerLoading | frontend/src/state/DataContext.js:30-37 | an aborted fetch clears `loading` even while a newer fetch is in flight |
| DataContext.LateResponseWins | frontend/src/state/DataContext.js:26-28 | a page-1 response arriving last replaces the list, whatever query it belonged to |
| DataContext.StalePageIsAppended | frontend/src/state/DataContext.js:26-46 | a later page of a previous query is put into the list of the new one |
| DataContext.ResetBreaksHasMoreRelation | frontend/src/state/DataContext.js:24-46 | right after a reset, `hasMore` is true while `total` is 0 |
| DataContext.AbortKeepsAgreement | frontend/src/state/DataContext.js:30-37 | an abort keeps `hasMore` consistent with the page values |
| DataContext.ErrorKeepsAgreement | frontend/src/state/DataContext.js:31-34 | an error leaves `hasMore` consistent with total 0 |
| ItemsPage.OnItemsRendered | frontend/src/pages/Items.js:36-46 | a fetch starts iff not loading, more pages exist and the last visible row is within 5 of the end; it asks for page+1 of the same q at pageSize |
| ItemsPage.NoTriggerWhileLoading | frontend/src/pages/Items.js:36-46 | once a fetch has begun, rendering starts no second fetch |
| ItemsPage.ItemCount | frontend/src/pages/Items.js:155 | one row per item, plus one exactly when more pages exist |
| ItemsPage.RowAt | frontend/src/pages/Items.js:55-67 | an index inside the list shows its item; the index just past it shows a skeleton when loading with more pages and nothing otherwise; any later index shows nothing |
| ItemsPage.RowsOfVirtualList | frontend/src/pages/Items.js:55-67 | every row of the virtual list shows an item except the trailing one, which is a skeleton while loading and empty otherwise |
| ItemsPage.ViewOf | frontend/src/pages/Items.js:138-163 | the full skeleton iff loading with no items; "No items found" iff idle, empty and `q` set; "No items available" iff idle, empty and no `q` |
| ItemsPage.VirtualListIffItems | frontend/src/pages/Items.js:138-163 | the virtual list is rendered exactly when some item is loaded |
| ItemsPage.SkeletonCount | frontend/src/pages/Items.js:92 | one placeholder per `pageSize`; `Array` throws for a size outside [0, 2^32) |
| ItemsPage.LoadingIndicator | frontend/src/pages/Items.js:138-168 | while loading, exactly one of the full skeleton and the spinner is shown; neither when idle |
| ItemsPage.Effect | frontend/src/pages/Items.js:30-34 | on mount or a change of `q` or `pageSize`, page 1 of `q` at `pageSize` is fetched and the previous request aborted; otherwise nothing |
| ItemsPage.MountFetchesFirstPage | frontend/src/pages/Items.js:30-34 | mounting fetches the first 10 items of the unfiltered list |
| ItemsPage.SubmitSearch | frontend/src/pages/Items.js:48-52 | submitting while loading does nothing; otherwise the controller is reset to the typed text, and a fetch follows iff the text differs from the current `q` |
| ItemsPage.ResubmitEmptiesList | frontend/src/pages/Items.js:30-52 | re-submitting the current text empties the list, fetches nothing, and the page reports no items |
| ItemsPage.SubmitSearchFixed | frontend/src/pages/Items.js:48-52 | every enabled submission resets the list and fetches page 1 of the typed text |
| ItemsPage.FixedSubmitReloads | frontend/src/pages/Items.js:48-52 | after the corrected submission and its response, the list is that response's items for the typed text |
| ItemsPage.FixAgreesOnNewText | frontend/src/pages/Items.js:48-52 | the corrected submission behaves as written whenever the text changed |
| ItemDetail.ToInt32 | frontend/src/pages/ItemDetail.js:13 | ToInt32 is the 32-bit signed value congruent to its input |
| ItemDetail.Hash32 | frontend/src/pages/ItemDetail.js:11-14 | the rolling hash is an unsigned 32-bit value |
| ItemDetail.JsStep | frontend/src/pages/ItemDetail.js:13 | one step `c + ((hash << 5) - hash)` in Number arithmetic, with `<<` working on ToInt32 of the hash; `ItemDetail.JsStepWraps` ties it to `ItemDetail.Hash32` modulo 2^32 |
| ItemDetail.JsHash | frontend/src/pages/ItemDetail.js:11-14 | the loop over the code units; `ItemDetail.JsHashWraps` proves it congruent to `ItemDetail.Hash32` and `ItemDetail.HashIsExactInNumbers` bounds it below 2^53 |
| ItemDetail.JsStepWraps | frontend/src/pages/ItemDetail.js:13 | `c + ((h << 5) - h)` is `c + 31*h` modulo 2^32 |
| ItemDetail.JsHashWraps | frontend/src/pages/ItemDetail.js:11-14 | the Number computed by the loop is congruent to the 32-bit rolling hash from 0 |
| ItemDetail.JsHashBound | frontend/src/pages/ItemDetail.js:12-14 | each iteration moves the hash by less than 2^31 + 2^16 |
| ItemDetail.HashIsExactInNumbers | frontend/src/pages/ItemDetail.js:12-14 | for names up to 2^21 code units, every value stays below 2^53, so Number arithmetic is exact |
| ItemDetail.JsByte | frontend/src/pages/ItemDetail.js:17 | `(h >> 8i) & 0xff` is a byte |
| ItemDetail.JsByteOfHash | frontend/src/pages/ItemDetail.js:17 | the extracted bytes are bytes 0, 1 and 2 of the unsigned 32-bit hash |
| ItemDetail.HexDigit | frontend/src/pages/ItemDetail.js:17 | a digit is a lowercase hex character with that value |
| ItemDetail.ToHexString | frontend/src/pages/ItemDetail.js:17 | `toString(16)` is lowercase hex digits without a leading zero; one digit below 16, two for a byte, with its value |
| ItemDetail.PadByte | frontend/src/pages/ItemDetail.js:17 | the padded byte is exactly two lowercase hex digits whose value is the byte |
| ItemDetail.StringToColor | frontend/src/pages/ItemDetail.js:10-20 | the colour is '#' followed by exactly six lowercase hex digits |
| ItemDetail.ColorSpellsHashBytes | frontend/src/pages/ItemDetail.js:16-18 | digit pairs 1-2, 3-4 and 5-6 are bytes 0, 1 and 2 of the hash |
| ItemDetail.ColorRoundTrip | frontend/src/pages/ItemDetail.js:15-19 | the colour, read back low byte first, is the hash modulo 2^24 |
| ItemDetail.EmptyStringIsBlack | frontend/src/pages/ItemDetail.js:11-19 | the empty string gives "#000000" |
| ItemDetail.AvatarBackground | frontend/src/pages/ItemDetail.js:102 | "#999" exactly when the name is absent or empty, otherwise the colour of the name's code units |
| CatalogFlow.RouteAnswers | backend/src/routes/items.js:13-32 | for positive page and limit, the route answers exactly the requested page of the matches of the sent `q` |
| CatalogFlow.FirstPageLoads | frontend/src/state/DataContext.js:21-28 | the answered first page replaces the list with the first `pageSize` matches |
| CatalogFlow.ScrollStep | frontend/src/pages/Items.js:39-42 | while matches remain, rendering the last row fetches the next page, and the list grows by exactly that page |
| CatalogFlow.ScrollingLoadsPrefix | frontend/src/state/DataContext.js:21-28 | after k further pages, the list is the first (k+1)*pageSize matches in order |
| CatalogFlow.EveryMatchLoads | frontend/src/pages/Items.js:39-42 | scrolling eventually holds every match, after which `hasMore` is false and the trigger is off |
| CatalogFlow.SearchShowsFirstMatches | frontend/src/pages/Items.js:48-52 | with the corrected submission, a search shows the first page of the typed text's matches |

## Left out

- DataContext.CompleteFetch: `fetch` resolves on an HTTP error status too, so the 500 body `{ message }` of a failed route would run the success branch with `total`, `page` and `pageSize` undefined and then throw while rendering or spreading `items`. Non-2xx responses are not modelled; `Loaded` is a list body.
- Transport: Express routing, CORS, middleware, the error handler, and the axios/fetch service wrappers. A route's outcome is a `Result`, and `next(err)` is its failure.
- File I/O and the clock: `readData`, `writeData`, `fs.readFile`, `JSON.parse`, `fs.stat` and `Date.now()` are parameters. A document that `JSON.parse` reads as `null` is modelled for the stats route only (`StatsRoute.FileRead`); the item routes read an array of items, and a `null` document, which makes them throw and answer 500, is not modelled there. Nor is a document that parses to anything else.
- URL encoding: `URLSearchParams` and Express's query parser are assumed to carry `q` unchanged, and to carry a number as `String(n)`. Query values that are arrays or objects are not modelled.
- ItemsRoute.SearchTerm: `toLowerCase` is modelled on ASCII letters only; other characters are kept as they are.
- JsNumber.ParseInt: reads integers exactly. The loss of precision past 2^53 is not modelled.
- StatsCalc.CalculateStats: prices are real numbers. IEEE-754 rounding of the sum and the quotient is not modelled. A price that is not a number (a string, say) is not modelled, and neither is `NaN`.
- StatsCalc.RoundHundredths: `toFixed(2)` rounds the exact real value half away from zero. The double nearest a decimal such as 1.005 can round the other way in JavaScript.
- ItemDetail.JsHash: computed on unbounded integers. It matches Number arithmetic only for names of up to 2^21 code units (`ItemDetail.HashIsExactInNumbers`); longer names are not modelled.
- Concurrency: the interleavings of `refreshStats` with other requests and of overlapping fetches are not modelled. `calculating` is a plain field, so its early return is reachable, and the fetch is modelled as two steps: `DataContext.BeginFetch` before its awaits and `DataContext.CompleteFetch` after them. It awaits twice (`fetch`, then `res.json()`), but no provider state changes between the two and both rejections reach the same `catch`, so they form one step.
- StatsRoute.RefreshStats: the refresh reads the file and then stats it. A write between the two (a time-of-check to time-of-use race) is not modelled.
- Rendering: React and MUI output, the detail page's loading/not-found state, `toLocaleString` prices, `App.js` routing and `Header.js`. Only the decisions the Items page takes and the avatar colour are modelled.
- The `id` assigned on POST is the clock value passed in. Its uniqueness is not modelled; `ItemsRoute.CreatedItemIsFound` assumes it.
- The POST body is taken to have the fields of an item. A missing or extra field is not modelled.

## Findings

| source | as written | input that shows it | evidently intended | confidence | as-written member | corrected member |
|---|---|---|---|---|---|---|
| frontend/src/pages/Items.js:48-52 | submitting calls only `resetAndFetch`, which empties the list; the fetch comes from the effect, which runs only when `q` or `pageSize` changed | a page showing the results for "a", not loading, with "a" submitted again | every submission reloads page 1 of the typed text, as the comment on line 50 says | not executed | ItemsPage.ResubmitEmptiesList | ItemsPage.SubmitSearchFixed |

With the code as written (`ItemsPage.SubmitSearch`), re-submitting the same text shows "No items found for" that text. No fetch follows, and scrolling cannot load anything because the virtual list is no longer rendered. The corrected submission always fetches page 1 (`ItemsPage.FixedSubmitReloads`, `CatalogFlow.SearchShowsFirstMatches`). It agrees with the code as written whenever the text changed (`ItemsPage.FixAgreesOnNewText`).

=== FILE: catalog.dfy ===
/** The records the backend and the frontend exchange. */
module Catalog {
  import opened Wrappers

  /** A catalog entry as stored in the data file. A price may be absent
      (`undefined`/`null` in the JSON); every other field is present. */
  datatype Item = Item(id: int, name: string, category: string, price: Option<real>)

  /** The body of `GET /api/items`: one page of the filtered list plus the
      paging values the server used. */
  datatype ListBody = ListBody(items: seq<Item>, total: int, page: int, pageSize: int)

  /** A failure of the file system or of `JSON.parse`, with its message. */
  datatype IoError = IoError(message: string)

  /** What a route hands to Express' `next(err)`: the `status` property the
      route set and the error message. An I/O failure is passed on as it
      is, so it has no status and keeps its message. */
  datatype RouteError = RouteError(status: Option<int>, message: string)
}

=== FILE: catalog_flow.dfy ===
/** The Items page, the list controller and the `/api/items` route working
    together: what a sequence of page fetches leaves in the list when every
    request is answered by the route over the same data. */
module CatalogFlow {
  import opened Wrappers
  import opened Catalog
  import JsNumber
  import opened JsSlice
  import opened ItemsRoute
  import opened DataContext
  import opened ItemsPage

  /** The query `URLSearchParams({ q, page, limit })` sends, as the route
      reads it back: `String` of each number. */
  function EncodeQuery(req: Request): ListQuery {
    ListQuery(Some(req.q), Some(JsNumber.DecimalString(req.page)), Some(JsNumber.DecimalString(req.limit)))
  }

  /** The matches of a request's search text in `data`. */
  function MatchesOf(data: seq<Item>, q: string): seq<Item> {
    KeepMatching(data, SearchTerm(Some(q)))
  }

  /** The body the route sends for a request with positive paging values:
      the requested page of the matches, their number, and the paging
      values asked for. */
  function Answer(data: seq<Item>, req: Request): ListBody {
    var results := MatchesOf(data, req.q);
    ListBody(PageWindow(results, req.page, req.limit), |results|, req.page, req.limit)
  }

  /** The route answers what the client asks: a request with positive
      paging values gets exactly its page of the matches. */
  lemma RouteAnswers(data: seq<Item>, req: Request)
    requires req.page >= 1 && req.limit >= 1
    ensures ListItems(Success(data), EncodeQuery(req)) == Success(Answer(data, req))
  {
    ParamRoundTrip(req.page, DefaultPage);
    ParamRoundTrip(req.limit, DefaultLimit);
  }

  /** A fetch that the route answers over `data`. */
  function Fetched(s: PageState, req: Request, data: seq<Item>): PageState {
    CompleteFetch(BeginFetch(s), req, Loaded(Answer(data, req)))
  }

  /** The page's effect fetching page 1 of the current query. */
  function FirstPage(s: PageState, data: seq<Item>): PageState {
    Fetched(s, Request(s.q, 1, s.pageSize), data)
  }

  /** `k` rounds of rendering with the last loaded row visible, each
      fetching the next page when the trigger fires. */
  function Scrolled(s: PageState, data: seq<Item>, k: nat): PageState {
    if k == 0 then s
    else
      var p := Scrolled(s, data, k - 1);
      if OnItemsRendered(p, |p.items|).Some? then
        Fetched(p, OnItemsRendered(p, |p.items|).value, data)
      else p
  }

  /** The list after `pages` pages of the matches of `q`, `limit` each. */
  function AfterPages(data: seq<Item>, q: string, limit: int, pages: nat): PageState
    requires limit >= 1
  {
    var results := MatchesOf(data, q);
    JsNumber.NatProduct(pages, limit);
    PageState(results[..Min(pages * limit, |results|)], |results|, pages, limit, q, false,
              pages * limit < |results|)
  }

  /** The first page replaces whatever the list held. */
  lemma FirstPageLoads(s: PageState, data: seq<Item>)
    requires s.pageSize >= 1
    ensures FirstPage(s, data) == AfterPages(data, s.q, s.pageSize, 1)
  {
  }

  /** While more matches remain, rendering the last row fetches the next
      page, and the list grows by exactly that page. */
  lemma ScrollStep(data: seq<Item>, q: string, limit: int, k: nat)
    requires limit >= 1 && k >= 1 && k * limit < |MatchesOf(data, q)|
    ensures var p := AfterPages(data, q, limit, k);
      && OnItemsRendered(p, |p.items|) == Some(Request(q, k + 1, limit))
      && Fetched(p, Request(q, k + 1, limit), data) == AfterPages(data, q, limit, k + 1)
  {
    var results := MatchesOf(data, q);
    var p := AfterPages(data, q, limit, k);
    var page := PageWindow(results, k + 1, limit);
    NextPageStart(k + 1, limit);
    JsNumber.NatProduct(k, limit);
    PageWindowIsRange(results, k + 1, limit);
    assert page == results[Min(k * limit, |results|)..Min((k + 1) * limit, |results|)];
    PrefixThenWindow(results, k * limit, (k + 1) * limit);
    assert p.items + page == results[..Min((k + 1) * limit, |results|)];
  }

  /** Scrolling loads the matches page after page: after `k` further pages
      the list is the first `(k + 1) * limit` matches, nothing repeated or
      skipped, as long as each earlier page left more to load. */
  lemma {:induction false} ScrollingLoadsPrefix(s: PageState, data: seq<Item>, k: nat)
    requires s.pageSize >= 1
    requires k * s.pageSize < |MatchesOf(data, s.q)|
    ensures FirstPage(s, data).page == 1
    ensures Scrolled(FirstPage(s, data), data, k) == AfterPages(data, s.q, s.pageSize, k + 1)
  {
    FirstPageLoads(s, data);
    if k > 0 {
      LaterPagesStart(k, s.pageSize);
      ScrollingLoadsPrefix(s, data, k - 1);
      ScrollStep(data, s.q, s.pageSize, k);
    }
  }

  lemma LaterPagesStart(k: nat, limit: int)
    requires k > 0 && limit >= 1
    ensures (k - 1) * limit < k * limit
  {
  }

  /** Scrolling reaches every match: after enough pages the list holds all
      of them, `hasMore` is false and the trigger is off. */
  lemma EveryMatchLoads(s: PageState, data: seq<Item>, k: nat)
    requires s.pageSize >= 1 && |MatchesOf(data, s.q)| > 0
    requires k == (|MatchesOf(data, s.q)| - 1) / s.pageSize
    ensures var r := Scrolled(FirstPage(s, data), data, k);
      r.items == MatchesOf(data, s.q) && !r.hasMore
      && forall v :: OnItemsRendered(r, v).None?
  {
    LastPageCovers(|MatchesOf(data, s.q)|, s.pageSize, k);
    ScrollingLoadsPrefix(s, data, k);
    AllPagesLoaded(data, s.q, s.pageSize, k + 1);
  }

  lemma AllPagesLoaded(data: seq<Item>, q: string, limit: int, pages: nat)
    requires limit >= 1 && pages * limit >= |MatchesOf(data, q)|
    ensures var r := AfterPages(data, q, limit, pages);
      r.items == MatchesOf(data, q) && !r.hasMore && !r.loading
  {
  }

  lemma LastPageCovers(n: int, limit: int, k: int)
    requires n >= 1 && limit >= 1 && k == (n - 1) / limit
    ensures k * limit < n <= (k + 1) * limit
  {
    assert n - 1 == k * limit + (n - 1) % limit;
    assert (k + 1) * limit == k * limit + limit;
  }

  /** With the corrected submission, searching shows the first page of the
      matches of the typed text, re-submitting the same text included. */
  lemma SearchShowsFirstMatches(s: PageState, data: seq<Item>, search: string)
    requires !s.loading && s.pageSize >= 1
    ensures var r := SubmitSearchFixed(s, search);
      && r.request == Some(Request(search, 1, s.pageSize))
      && FirstPage(r.state, data) == AfterPages(data, search, s.pageSize, 1)
  {
    FirstPageLoads(SubmitSearchFixed(s, search).state, data);
  }
}

=== FILE: data_context.dfy ===
/** The client's list controller (`DataProvider`): the paged, searchable
    item list the Items page renders, and its transitions. A fetch awaits
    twice, for the response and for its JSON body; no provider state changes
    between the two and both reject into the same `catch`, so they are one
    step: `BeginFetch` is what runs before them, `CompleteFetch` what runs
    once the body is parsed or either await has thrown. */
module DataContext {
  import opened Wrappers
  import opened Catalog

  /** The provider's state values. */
  datatype PageState = PageState(
    items: seq<Item>, total: int, page: int, pageSize: int,
    q: string, loading: bool, hasMore: bool)

  /** The `useState` initial values. */
  const Initial := PageState([], 0, 1, 10, "", false, true)

  /** The argument object of `fetchItems`; an absent field is `undefined`. */
  datatype FetchArgs = FetchArgs(q: Option<string>, page: Option<int>, limit: Option<int>)

  /** The query a fetch sends, once the defaults are filled in. */
  datatype Request = Request(q: string, page: int, limit: int)

  /** How the network call settled: a parsed list body, an abort through
      the request's signal, or any other rejection (a network failure, a
      body that is not JSON). A response with an error status does not
      reject `fetch` and is not one of these. */
  datatype FetchOutcome = Loaded(body: ListBody) | AbortError | OtherError

  /** The destructuring defaults of `fetchItems`. */
  function RequestOf(args: FetchArgs): (r: Request)
    ensures args.q.Some? ==> r.q == args.q.value
    ensures args.q.None? ==> r.q == ""
    ensures args.page.Some? ==> r.page == args.page.value
    ensures args.page.None? ==> r.page == 1
    ensures args.limit.Some? ==> r.limit == args.limit.value
    ensures args.limit.None? ==> r.limit == 10
  {
    Request(args.q.GetOr(""), args.page.GetOr(1), args.limit.GetOr(10))
  }

  /** What `fetchItems` does before it awaits the network. */
  function BeginFetch(s: PageState): (r: PageState)
    ensures r.loading
    ensures r.(loading := s.loading) == s
  {
    s.(loading := true)
  }

  /** Whether the response says a further page exists. */
  predicate MoreAfter(body: ListBody) {
    body.page * body.pageSize < body.total
  }

  /** What `fetchItems` does once the call has settled. The response's page
      values replace the state's; the requested page decides whether the
      items replace or extend the list. Nothing checks that the response
      belongs to the current query. */
  function CompleteFetch(s: PageState, req: Request, outcome: FetchOutcome): (r: PageState)
    ensures !r.loading
    ensures r.q == s.q
    ensures outcome.Loaded? ==>
      && r.total == outcome.body.total
      && r.page == outcome.body.page
      && r.pageSize == outcome.body.pageSize
      && (r.hasMore <==> r.page * r.pageSize < r.total)
      && r.items == (if req.page == 1 then [] else s.items) + outcome.body.items
    ensures outcome.AbortError? ==> r == s.(loading := false)
    ensures outcome.OtherError? ==>
      r == s.(items := [], total := 0, hasMore := false, loading := false)
  {
    match outcome
    case Loaded(body) =>
      var items := if req.page == 1 then body.items else s.items + body.items;
      PageState(items, body.total, body.page, body.pageSize, s.q, false, MoreAfter(body))
    case AbortError => s.(loading := false)
    case OtherError => s.(items := [], total := 0, hasMore := false, loading := false)
  }

  /** A whole `fetchItems` call whose request settles before anything else
      happens. */
  function FetchItems(s: PageState, args: FetchArgs, outcome: FetchOutcome): (r: PageState)
    ensures !r.loading
    ensures r.q == s.q
    ensures outcome.AbortError? ==> r == s.(loading := false)
  {
    CompleteFetch(BeginFetch(s), RequestOf(args), outcome)
  }

  /** `resetAndFetch`: empties the list and stores the query. Despite its
      name it issues no request; the Items page's effect does that when `q`
      changes. */
  function ResetAndFetch(s: PageState, q: string): (r: PageState)
    ensures r.items == [] && r.total == 0 && r.page == 1 && r.hasMore
    ensures r.q == q
    ensures r.pageSize == s.pageSize && r.loading == s.loading
  {
    s.(items := [], total := 0, page := 1, hasMore := true, q := q)
  }

  /** A page fetched after others keeps them in front of it: the list
      only grows at its end. */
  lemma LaterPageExtendsList(s: PageState, req: Request, body: ListBody)
    requires req.page != 1
    ensures var r := CompleteFetch(BeginFetch(s), req, Loaded(body));
      |r.items| == |s.items| + |body.items| && r.items[..|s.items|] == s.items
  {
  }

  /** The response's `total` and page values decide `hasMore`, as in the
      example of 25 items in pages of 10: more after page 1, none after 3. */
  lemma HasMoreExamples(s: PageState, req: Request, items: seq<Item>)
    ensures CompleteFetch(s, req, Loaded(ListBody(items, 25, 1, 10))).hasMore
    ensures !CompleteFetch(s, req, Loaded(ListBody(items, 25, 3, 10))).hasMore
  {
  }

  /** An aborted fetch clears `loading` even when it was superseded by a
      fetch that is still in flight. */
  lemma AbortClearsNewerLoading(s: PageState, req: Request)
    requires s.loading
    ensures !CompleteFetch(s, req, AbortError).loading
  {
  }

  /** A page-1 response replaces the list whatever query it was sent for:
      when the response of an earlier search arrives after the newer one,
      its items are what remains. */
  lemma LateResponseWins(s: PageState, oldReq: Request, oldBody: ListBody,
                         newReq: Request, newBody: ListBody)
    requires oldReq.page == 1 && newReq.page == 1
    ensures var afterNew := CompleteFetch(s, newReq, Loaded(newBody));
      CompleteFetch(afterNew, oldReq, Loaded(oldBody)).items == oldBody.items
  {
  }

  /** A later-page response of a previous search is appended to the list of
      the current one. */
  lemma StalePageIsAppended(s: PageState, q: string, oldReq: Request, oldBody: ListBody)
    requires oldReq.page != 1 && oldReq.q != q
    ensures var r := CompleteFetch(ResetAndFetch(s, q), oldReq, Loaded(oldBody));
      r.q == q && r.items == oldBody.items
  {
  }

  /** Right after a reset, `hasMore` claims a further page of a list whose
      `total` is 0: the relation `hasMore == (page * pageSize < total)`
      that every successful fetch establishes does not hold again until the
      next response. */
  lemma ResetBreaksHasMoreRelation(s: PageState, q: string)
    requires s.pageSize >= 0
    ensures var r := ResetAndFetch(s, q);
      r.hasMore && !(r.page * r.pageSize < r.total)
  {
  }

  /** `hasMore` agrees with the page values and `total`, as it does after
      every successful fetch. */
  predicate HasMoreAgrees(s: PageState) {
    s.hasMore <==> s.page * s.pageSize < s.total
  }

  /** Before the first response the provider holds an empty list that
      claims more pages, so `hasMore` disagrees with `total` as it does
      after a reset; its query and page values are the defaults
      `fetchItems` fills in. */
  lemma InitialClaimsMore()
    ensures Initial.items == [] && Initial.total == 0 && Initial.hasMore && !HasMoreAgrees(Initial)
    ensures RequestOf(FetchArgs(None, None, None)) == Request(Initial.q, Initial.page, Initial.pageSize)
  {
  }

  /** An abort changes none of the values the agreement relates. */
  lemma AbortKeepsAgreement(s: PageState, req: Request)
    requires HasMoreAgrees(s)
    ensures HasMoreAgrees(CompleteFetch(s, req, AbortError))
  {
  }

  /** An error sets `total` to 0 and `hasMore` to false, which agree unless
      the kept page values have a negative product. */
  lemma ErrorKeepsAgreement(s: PageState, req: Request)
    requires s.page * s.pageSize >= 0
    ensures HasMoreAgrees(CompleteFetch(s, req, OtherError))
  {
  }
}

=== FILE: item_detail.dfy ===
/** `stringToColor` and the avatar background of the item detail page. The
    hash is JavaScript Number arithmetic over the name's UTF-16 code units;
    the model computes it exactly on integers and relates it to the 32-bit
    rolling hash `h := 31 * h + c (mod 2^32)`. */
module ItemDetail {
  import opened Wrappers
  import opened JsString
  import opened JsSlice

  const TwoTo31 := 0x8000_0000
  const TwoTo32 := 0x1_0000_0000

  /** ECMAScript ToInt32 on an integral Number: the value in
      `[-2^31, 2^31)` congruent to `x` modulo 2^32. */
  function ToInt32(x: int): (r: int)
    ensures -TwoTo31 <= r < TwoTo31
    ensures r == x % TwoTo32 || r == x % TwoTo32 - TwoTo32
  {
    var m := x % TwoTo32;
    if m >= TwoTo31 then m - TwoTo32 else m
  }

  /** The rolling hash as 32-bit unsigned arithmetic, from 0. */
  function Hash32(u: seq<CodeUnit>): (h: int)
    ensures 0 <= h < TwoTo32
  {
    if |u| == 0 then 0
    else (u[|u| - 1] + 31 * Hash32(u[..|u| - 1])) % TwoTo32
  }

  /** One iteration of the loop: `charCodeAt(i) + ((hash << 5) - hash)`.
      `<<` works on ToInt32 of its operand and its result; the subtraction
      and the addition are ordinary Number arithmetic. */
  function JsStep(h: int, c: CodeUnit): int {
    c + (ToInt32(ToInt32(h) * 32) - h)
  }

  /** `hash` after the loop over all of `u`. */
  function JsHash(u: seq<CodeUnit>): int {
    if |u| == 0 then 0 else JsStep(JsHash(u[..|u| - 1]), u[|u| - 1])
  }

  lemma ShiftByMultiple(x: int, t: int)
    ensures (x + TwoTo32 * t) % TwoTo32 == x % TwoTo32
  {
  }

  /** One loop iteration agrees with the 32-bit rolling step modulo 2^32. */
  lemma JsStepWraps(h: int, c: CodeUnit)
    ensures JsStep(h, c) % TwoTo32 == (c + 31 * (h % TwoTo32)) % TwoTo32
  {
    var m := h % TwoTo32;
    var k := h / TwoTo32;
    var a := ToInt32(h);
    var e := if a == m then 0 else 1;
    assert a == m - TwoTo32 * e;
    var d := (32 * a) / TwoTo32;
    var b := ToInt32(32 * a);
    var f := if b == (32 * a) % TwoTo32 then 0 else 1;
    assert b == 32 * a - TwoTo32 * d - TwoTo32 * f;
    assert h == TwoTo32 * k + m;
    assert JsStep(h, c) == c + 31 * m + TwoTo32 * (-32 * e - d - f - k);
    ShiftByMultiple(c + 31 * m, -32 * e - d - f - k);
  }

  /** The JavaScript hash is congruent to the rolling hash modulo 2^32. */
  lemma {:induction false} JsHashWraps(u: seq<CodeUnit>)
    ensures JsHash(u) % TwoTo32 == Hash32(u)
  {
    if |u| > 0 {
      var p := u[..|u| - 1];
      JsHashWraps(p);
      JsStepWraps(JsHash(p), u[|u| - 1]);
    }
  }

  /** Each iteration moves the hash by less than `2^31 + 2^16`. */
  lemma {:induction false} JsHashBound(u: seq<CodeUnit>)
    ensures -|u| * (TwoTo31 + 0x1_0000) <= JsHash(u) <= |u| * (TwoTo31 + 0x1_0000)
  {
    if |u| > 0 {
      JsHashBound(u[..|u| - 1]);
    }
  }

  /** For names of up to 2^21 code units every value the loop computes is an
      integer below 2^53 in magnitude, which a Number holds exactly; so the
      integer model is the Number computation. */
  lemma HashIsExactInNumbers(u: seq<CodeUnit>)
    requires |u| <= 0x20_0000
    ensures -0x20_0000_0000_0000 < JsHash(u) < 0x20_0000_0000_0000
  {
    JsHashBound(u);
  }

  /** `2^(8 i)`, the divisor of `>> (i * 8)`. */
  function ByteShift(i: nat): int
    requires i < 3
  {
    if i == 0 then 1 else if i == 1 then 0x100 else 0x1_0000
  }

  /** `(hash >> (i * 8)) & 0xff`: `>>` is an arithmetic shift of ToInt32,
      which is floor division, and `& 0xff` keeps the low eight bits. */
  function JsByte(h: int, i: nat): (r: int)
    requires i < 3
    ensures 0 <= r < 0x100
  {
    (ToInt32(h) / ByteShift(i)) % 0x100
  }

  /** The three bytes the colour uses are bytes 0, 1 and 2 of the unsigned
      32-bit hash, whichever sign ToInt32 gives it. */
  lemma JsByteOfHash(u: seq<CodeUnit>, i: nat)
    requires i < 3
    ensures JsByte(JsHash(u), i) == (Hash32(u) / ByteShift(i)) % 0x100
  {
    JsHashWraps(u);
    var h := Hash32(u);
    if ToInt32(JsHash(u)) != h {
      assert ToInt32(JsHash(u)) == h - TwoTo32;
      ByteOfWrapped(h, i);
    }
  }

  lemma ByteOfWrapped(h: int, i: nat)
    requires i < 3 && 0 <= h < TwoTo32
    ensures ((h - TwoTo32) / ByteShift(i)) % 0x100 == (h / ByteShift(i)) % 0x100
  {
    if i == 0 {
    } else if i == 1 {
      assert (h - TwoTo32) / 0x100 == h / 0x100 - 0x100_0000;
    } else {
      assert (h - TwoTo32) / 0x1_0000 == h / 0x1_0000 - 0x1_0000;
    }
  }

  const HexDigits := "0123456789abcdef"

  predicate IsLowerHex(c: char) {
    '0' <= c <= '9' || 'a' <= c <= 'f'
  }

  /** The value of a lowercase hexadecimal digit. */
  function HexValue(c: char): int {
    if '0' <= c <= '9' then c as int - '0' as int else c as int - 'a' as int + 10
  }

  function HexDigit(d: int): (c: char)
    requires 0 <= d < 16
    ensures IsLowerHex(c) && HexValue(c) == d
  {
    HexDigits[d]
  }

  /** `n.toString(16)` for a non-negative integer: lowercase digits, most
      significant first, no leading zero. */
  function ToHexString(n: nat): (r: string)
    ensures |r| >= 1
    ensures forall k :: 0 <= k < |r| ==> IsLowerHex(r[k])
    ensures n > 0 ==> r[0] != '0'
    ensures n < 16 <==> |r| == 1
    ensures n < 16 ==> HexValue(r[0]) == n
    ensures 16 <= n < 0x100 ==> |r| == 2 && HexValue(r[0]) * 16 + HexValue(r[1]) == n
  {
    if n < 16 then [HexDigit(n)] else ToHexString(n / 16) + [HexDigit(n % 16)]
  }

  /** The value of two hexadecimal digits. */
  function PairValue(s: string): int
    requires |s| == 2
  {
    HexValue(s[0]) * 16 + HexValue(s[1])
  }

  /** `('00' + b.toString(16)).slice(-2)`: the byte as exactly two digits. */
  function PadByte(b: int): (r: string)
    requires 0 <= b < 0x100
    ensures |r| == 2 && IsLowerHex(r[0]) && IsLowerHex(r[1])
    ensures PairValue(r) == b
  {
    var padded := "00" + ToHexString(b);
    SliceFromEnd(padded, 2);
    Slice(padded, -2, |padded|)
  }

  /** `stringToColor` on the code units of its argument. */
  function StringToColor(u: seq<CodeUnit>): (r: string)
    ensures |r| == 7 && r[0] == '#'
    ensures forall k :: 1 <= k < 7 ==> IsLowerHex(r[k])
  {
    var h := JsHash(u);
    var p0, p1, p2 := PadByte(JsByte(h, 0)), PadByte(JsByte(h, 1)), PadByte(JsByte(h, 2));
    HexColorShape(p0, p1, p2);
    "#" + p0 + p1 + p2
  }

  lemma HexColorShape(p0: string, p1: string, p2: string)
    requires |p0| == 2 && IsLowerHex(p0[0]) && IsLowerHex(p0[1])
    requires |p1| == 2 && IsLowerHex(p1[0]) && IsLowerHex(p1[1])
    requires |p2| == 2 && IsLowerHex(p2[0]) && IsLowerHex(p2[1])
    ensures var r := "#" + p0 + p1 + p2;
      |r| == 7 && r[0] == '#' && forall k :: 1 <= k < 7 ==> IsLowerHex(r[k])
  {
    var r := "#" + p0 + p1 + p2;
    assert r[1] == p0[0] && r[2] == p0[1] && r[3] == p1[0] && r[4] == p1[1] && r[5] == p2[0] && r[6] == p2[1];
  }

  /** Digit pairs 1-2, 3-4 and 5-6 of the colour are bytes 0, 1 and 2 of
      the 32-bit hash. */
  lemma ColorSpellsHashBytes(u: seq<CodeUnit>)
    ensures var r := StringToColor(u); var h := Hash32(u);
      && PairValue(r[1..3]) == h % 0x100
      && PairValue(r[3..5]) == (h / 0x100) % 0x100
      && PairValue(r[5..7]) == (h / 0x1_0000) % 0x100
  {
    var h := JsHash(u);
    var p0, p1, p2 := PadByte(JsByte(h, 0)), PadByte(JsByte(h, 1)), PadByte(JsByte(h, 2));
    var r := StringToColor(u);
    assert r == "#" + p0 + p1 + p2;
    assert r[1..3] == p0 && r[3..5] == p1 && r[5..7] == p2;
    JsByteOfHash(u, 0);
    JsByteOfHash(u, 1);
    JsByteOfHash(u, 2);
  }

  /** Reading a colour back as a number. */
  function ColorValue(r: string): int
    requires |r| == 7
  {
    PairValue(r[1..3]) + 0x100 * PairValue(r[3..5]) + 0x1_0000 * PairValue(r[5..7])
  }

  /** The colour, read back low byte first, is the low 24 bits of the
      32-bit hash. */
  lemma ColorRoundTrip(u: seq<CodeUnit>)
    ensures ColorValue(StringToColor(u)) == Hash32(u) % 0x100_0000
  {
    var r := StringToColor(u);
    var h := Hash32(u);
    ColorSpellsHashBytes(u);
    LowBytes(h);
  }

  lemma LowBytes(h: int)
    requires 0 <= h
    ensures h % 0x100_0000 == h % 0x100 + 0x100 * ((h / 0x100) % 0x100) + 0x1_0000 * ((h / 0x1_0000) % 0x100)
  {
    SplitLow24(h);
    SplitLow16(h);
    assert (h / 0x100) % 0x100 == (h % 0x1_0000) / 0x100;
  }

  /** The low 24 bits are the low 16 bits and the third byte. */
  lemma SplitLow24(h: int)
    requires 0 <= h
    ensures h % 0x100_0000 == h % 0x1_0000 + 0x1_0000 * ((h / 0x1_0000) % 0x100)
  {
    var lo := h % 0x1_0000;
    var a := h / 0x1_0000;
    var b := a % 0x100;
    var c := a / 0x100;
    assert h == 0x1_0000 * a + lo;
    assert a == 0x100 * c + b;
    assert h == 0x100_0000 * c + (0x1_0000 * b + lo);
    ModOf24(h, c, 0x1_0000 * b + lo);
  }

  /** The low 16 bits are the low byte and the second byte. */
  lemma SplitLow16(h: int)
    requires 0 <= h
    ensures h % 0x1_0000 == h % 0x100 + 0x100 * ((h / 0x100) % 0x100)
  {
    var lo := h % 0x100;
    var a := h / 0x100;
    var b := a % 0x100;
    var c := a / 0x100;
    assert h == 0x100 * a + lo;
    assert a == 0x100 * c + b;
    assert h == 0x1_0000 * c + (0x100 * b + lo);
    ModOf16(h, c, 0x100 * b + lo);
  }

  lemma ModOf24(x: int, q: int, r: int)
    requires 0 <= r < 0x100_0000 && x == 0x100_0000 * q + r
    ensures x % 0x100_0000 == r
  {
  }

  lemma ModOf16(x: int, q: int, r: int)
    requires 0 <= r < 0x1_0000 && x == 0x1_0000 * q + r
    ensures x % 0x1_0000 == r
  {
  }

  lemma PadZero()
    ensures PadByte(0) == "00"
  {
    assert ToHexString(0) == "0";
    SliceFromEnd("00" + "0", 2);
  }

  /** The empty string hashes to 0 and is coloured black. */
  lemma EmptyStringIsBlack()
    ensures StringToColor([]) == "#000000"
  {
    assert JsHash([]) == 0;
    assert JsByte(0, 0) == 0 && JsByte(0, 1) == 0 && JsByte(0, 2) == 0;
    PadZero();
  }

  /** `item?.name ? stringToColor(item.name) : "#999"`, for a name that is
      absent or a string. */
  function AvatarBackground(name: Option<string>): (r: string)
    ensures r == "#999" <==> name.None? || name.value == ""
    ensures name.Some? && name.value != "" ==>
      r == StringToColor(Utf16(name.value)) && |r| == 7 && r[0] == '#'
  {
    if name.None? || name.value == "" then "#999" else StringToColor(Utf16(name.value))
  }
}

=== FILE: items_page.dfy ===
/** The decisions the Items page takes from the list controller's state:
    when to fetch the next page and what to ask for, how many rows the
    virtual list has and what each row shows, which view is rendered, and
    what the search form and the page's effect send to `fetchItems`. */
module ItemsPage {
  import opened Wrappers
  import opened Catalog
  import opened DataContext

  /** How many rows before the end of the loaded list scrolling starts the
      next page. */
  const Lookahead := 5

  /** `handleItemsRendered`'s condition, given the last visible row. */
  predicate ShouldFetchNext(s: PageState, visibleStopIndex: int) {
    !s.loading && s.hasMore && visibleStopIndex >= |s.items| - Lookahead
  }

  /** The fetch `handleItemsRendered` starts, if any: the next page of the
      current query at the current page size, sent without an abort
      signal. */
  function OnItemsRendered(s: PageState, visibleStopIndex: int): (r: Option<Request>)
    ensures r.Some? <==> !s.loading && s.hasMore && visibleStopIndex + Lookahead >= |s.items|
    ensures r.Some? ==> r.value == Request(s.q, s.page + 1, s.pageSize)
  {
    if ShouldFetchNext(s, visibleStopIndex) then Some(Request(s.q, s.page + 1, s.pageSize)) else None
  }

  /** Once a fetch has begun the trigger is off, so a re-render while the
      request is in flight starts no second one. */
  lemma NoTriggerWhileLoading(s: PageState, visibleStopIndex: int)
    ensures OnItemsRendered(BeginFetch(s), visibleStopIndex).None?
  {
  }

  /** The virtual list's `itemCount`: one row per item plus a trailing row
      while more pages exist. */
  function ItemCount(s: PageState): (r: nat)
    ensures r == |s.items| || (s.hasMore && r == |s.items| + 1)
    ensures r > |s.items| <==> s.hasMore
  {
    if s.hasMore then |s.items| + 1 else |s.items|
  }

  /** What `Row` renders at an index. */
  datatype RowView = ItemRow(item: Item) | SkeletonRow | NoRow

  function RowAt(s: PageState, index: nat): (r: RowView)
    ensures index < |s.items| ==> r == ItemRow(s.items[index])
    ensures r.SkeletonRow? <==> index == |s.items| && s.loading && s.hasMore
    ensures index >= |s.items| ==> r == if index == |s.items| && s.loading && s.hasMore then SkeletonRow else NoRow
  {
    if index < |s.items| then ItemRow(s.items[index])
    else if s.loading && s.hasMore && index == |s.items| then SkeletonRow
    else NoRow
  }

  /** Every row of the virtual list shows an item except the trailing one,
      which is a skeleton while a fetch runs and empty otherwise. */
  lemma RowsOfVirtualList(s: PageState, index: nat)
    requires index < ItemCount(s)
    ensures index != |s.items| ==> RowAt(s, index).ItemRow?
    ensures index == |s.items| ==> s.hasMore && (if s.loading then RowAt(s, index).SkeletonRow? else RowAt(s, index).NoRow?)
  {
  }

  /** The body of the page below the search form. */
  datatype ListView = FullSkeleton | NoResultsFor(q: string) | NoItemsAvailable | VirtualList

  function ViewOf(s: PageState): (r: ListView)
    ensures r == FullSkeleton <==> s.loading && |s.items| == 0
    ensures r.NoResultsFor? <==> !s.loading && |s.items| == 0 && s.q != ""
    ensures r.NoResultsFor? ==> r.q == s.q
    ensures r == NoItemsAvailable <==> !s.loading && |s.items| == 0 && s.q == ""
  {
    if s.loading && |s.items| == 0 then FullSkeleton
    else if |s.items| == 0 && s.q != "" && !s.loading then NoResultsFor(s.q)
    else if |s.items| == 0 && s.q == "" && !s.loading then NoItemsAvailable
    else VirtualList
  }

  /** The virtual list, and with it the scroll trigger, is rendered exactly
      when some item is loaded. */
  lemma VirtualListIffItems(s: PageState)
    ensures ViewOf(s) == VirtualList <==> |s.items| > 0
  {
  }

  /** The full skeleton has one placeholder per `pageSize`; `Array(n)`
      throws for a length that is negative or not below 2^32. */
  function SkeletonCount(pageSize: int): (r: Option<nat>)
    ensures r.Some? <==> 0 <= pageSize < 0x1_0000_0000
    ensures r.Some? ==> r.value == pageSize
  {
    if 0 <= pageSize < 0x1_0000_0000 then Some(pageSize) else None
  }

  /** The spinner below a non-empty list while a fetch runs. */
  predicate ShowsSpinner(s: PageState) {
    s.loading && |s.items| > 0
  }

  /** The full skeleton and the spinner are never shown together, and one
      of them is shown whenever a fetch runs. */
  lemma LoadingIndicator(s: PageState)
    ensures !(ShowsSpinner(s) && ViewOf(s) == FullSkeleton)
    ensures s.loading <==> ShowsSpinner(s) || ViewOf(s) == FullSkeleton
  {
  }

  /** The values the page's effect depends on (`fetchItems` never
      changes). */
  datatype EffectDeps = EffectDeps(q: string, pageSize: int)

  function DepsOf(s: PageState): EffectDeps {
    EffectDeps(s.q, s.pageSize)
  }

  /** The effect after a render: on mount (`previous` absent) or when `q`
      or `pageSize` changed, the previous request is aborted and page 1 of
      the current query is fetched; otherwise nothing happens. */
  datatype EffectRun = EffectRun(abortPrevious: bool, request: Option<Request>)

  function Effect(previous: Option<EffectDeps>, s: PageState): (r: EffectRun)
    ensures r.request.Some? <==> previous != Some(DepsOf(s))
    ensures r.request.Some? ==> r.request.value == Request(s.q, 1, s.pageSize)
    ensures r.abortPrevious <==> previous.Some? && r.request.Some?
  {
    if previous == Some(DepsOf(s)) then EffectRun(false, None)
    else EffectRun(previous.Some?, Some(Request(s.q, 1, s.pageSize)))
  }

  /** Mounting with the controller's initial state fetches the first ten
      items of the unfiltered list. */
  lemma MountFetchesFirstPage()
    ensures Effect(None, Initial) == EffectRun(false, Some(Request("", 1, 10)))
  {
  }

  /** The state after a form submission and the fetch it leads to. */
  datatype Submitted = Submitted(state: PageState, request: Option<Request>)

  /** Submitting the search form as written: the button is disabled while
      loading, which also blocks submitting with Enter; otherwise
      `resetAndFetch` runs and the effect fetches only if the query text
      changed. */
  function SubmitSearch(s: PageState, search: string): (r: Submitted)
    ensures s.loading ==> r == Submitted(s, None)
    ensures !s.loading ==> r.state == ResetAndFetch(s, search)
    ensures r.request.Some? <==> !s.loading && search != s.q
    ensures r.request.Some? ==> r.request.value == Request(search, 1, s.pageSize)
  {
    if s.loading then Submitted(s, None)
    else
      var reset := ResetAndFetch(s, search);
      Submitted(reset, Effect(Some(DepsOf(s)), reset).request)
  }

  /** Submitting the text already searched for empties the list and fetches
      nothing: the page then reports no items, and with no virtual list
      rendered the scroll trigger cannot load them again. */
  lemma ResubmitEmptiesList(s: PageState)
    requires !s.loading && |s.items| > 0
    ensures var r := SubmitSearch(s, s.q);
      && r.request.None?
      && r.state.items == []
      && ViewOf(r.state) == (if s.q == "" then NoItemsAvailable else NoResultsFor(s.q))
  {
  }

  /** Submitting as evidently intended: every enabled submission resets the
      list and fetches page 1 of the typed text. */
  function SubmitSearchFixed(s: PageState, search: string): (r: Submitted)
    ensures s.loading ==> r == Submitted(s, None)
    ensures !s.loading ==> r.state == ResetAndFetch(s, search)
    ensures r.request.Some? <==> !s.loading
    ensures r.request.Some? ==> r.request.value == Request(search, 1, s.pageSize)
  {
    if s.loading then Submitted(s, None)
    else Submitted(ResetAndFetch(s, search), Some(Request(search, 1, s.pageSize)))
  }

  /** With the fix, a submission followed by its response shows that
      response's items for the typed text, re-submission included. */
  lemma FixedSubmitReloads(s: PageState, search: string, body: ListBody)
    requires !s.loading
    ensures var r := SubmitSearchFixed(s, search);
      var after := CompleteFetch(BeginFetch(r.state), r.request.value, Loaded(body));
      after.items == body.items && after.q == search && !after.loading
  {
  }

  /** The two submissions differ only when the text is unchanged. */
  lemma FixAgreesOnNewText(s: PageState, search: string)
    requires search != s.q
    ensures SubmitSearch(s, search) == SubmitSearchFixed(s, search)
  {
  }
}

=== FILE: items_route.dfy ===
/** The `/api/items` router of the backend: search and pagination of the
    list, lookup by id, and creation. Reading and writing the data file are
    passed in as their outcomes. */
module ItemsRoute {
  import opened Wrappers
  import opened Catalog
  import JsString
  import JsNumber
  import opened JsSlice

  /** The query string of `GET /api/items` as Express hands it over: each
      parameter absent or a string. */
  datatype ListQuery = ListQuery(q: Option<string>, page: Option<string>, limit: Option<string>)

  const DefaultPage := 1
  const DefaultLimit := 10
  const NotFoundMessage := "Item not found"

  /** The lowered search term; absent and empty both give the empty term. */
  function SearchTerm(q: Option<string>): string {
    match q
    case Some(s) => if s == [] then [] else JsString.Lower(s)
    case None => []
  }

  /** Whether the item's lowered name contains the term. */
  predicate Matches(item: Item, term: string) {
    JsString.Includes(JsString.Lower(item.name), term)
  }

  /** The items whose name matches `term`, in their original order. */
  function KeepMatching(items: seq<Item>, term: string): (r: seq<Item>)
    ensures |r| <= |items|
    ensures forall x :: x in r ==> x in items && Matches(x, term)
    ensures forall i :: 0 <= i < |items| && Matches(items[i], term) ==> items[i] in r
  {
    if |items| == 0 then []
    else (if Matches(items[0], term) then [items[0]] else []) + KeepMatching(items[1..], term)
  }

  /** Filtering distributes over concatenation; with `KeepMatching([x])`
      this fixes the result completely: matches kept, in order. */
  lemma {:induction false} KeepMatchingAppend(a: seq<Item>, b: seq<Item>, term: string)
    ensures KeepMatching(a + b, term) == KeepMatching(a, term) + KeepMatching(b, term)
    decreases |a|
  {
    if |a| == 0 {
      assert a + b == b;
    } else {
      assert (a + b)[1..] == a[1..] + b;
      KeepMatchingAppend(a[1..], b, term);
    }
  }

  /** The empty term matches every name, so filtering by it keeps all. */
  lemma {:induction false} KeepMatchingEmptyTerm(items: seq<Item>)
    ensures KeepMatching(items, []) == items
  {
    if |items| > 0 {
      KeepMatchingEmptyTerm(items[1..]);
      assert Matches(items[0], []);
      assert [items[0]] + items[1..] == items;
    }
  }

  /** The route's filter step: skipped for the empty term. */
  function Search(items: seq<Item>, term: string): seq<Item> {
    if term == [] then items else KeepMatching(items, term)
  }

  /** Skipping the filter for the empty term changes nothing: the route
      returns exactly the matching items whatever the term. */
  lemma SearchIsFilter(items: seq<Item>, term: string)
    ensures Search(items, term) == KeepMatching(items, term)
  {
    if term == [] {
      KeepMatchingEmptyTerm(items);
    }
  }

  /** `parseInt(v, 10)` of a query parameter; an absent one is `NaN`. */
  function ParsedParam(v: Option<string>): Option<int> {
    match v
    case Some(s) => JsNumber.ParseInt(s, JsNumber.Ten)
    case None => None
  }

  /** `parseInt(v, 10) || fallback`: `NaN` and 0 are falsy. */
  function IntParamOr(v: Option<string>, fallback: int): (r: int)
    ensures ParsedParam(v).None? ==> r == fallback
    ensures ParsedParam(v) == Some(0) ==> r == fallback
    ensures ParsedParam(v).Some? && ParsedParam(v).value != 0 ==> r == ParsedParam(v).value
  {
    match ParsedParam(v)
    case Some(n) => if n == 0 then fallback else n
    case None => fallback
  }

  /** Page `page` of `results` at `limit` per page:
      `results.slice((page - 1) * limit, (page - 1) * limit + limit)`. */
  function PageWindow<T>(results: seq<T>, page: int, limit: int): seq<T> {
    var start := (page - 1) * limit;
    Slice(results, start, start + limit)
  }

  /** For positive page and limit, the page is the run of at most `limit`
      results that starts after the `page - 1` earlier pages. */
  lemma PageWindowIsRange<T>(results: seq<T>, page: int, limit: int)
    requires page >= 1 && limit >= 1
    ensures 0 <= (page - 1) * limit
    ensures var start := (page - 1) * limit;
      && |PageWindow(results, page, limit)| <= limit
      && PageWindow(results, page, limit) == results[Min(start, |results|)..Min(start + limit, |results|)]
  {
    JsNumber.NatProduct(page - 1, limit);
  }

  /** `GET /api/items`: the page of matching items, their total and the
      paging values used. A failed read goes to `next(err)`. */
  function ListItems(read: Result<seq<Item>, IoError>, query: ListQuery): (r: Result<ListBody, RouteError>)
    ensures read.Failure? ==> r == Failure(RouteError(None, read.error.message))
    ensures read.Success? ==> r.Success?
    ensures r.Success? ==> r.value.page == IntParamOr(query.page, DefaultPage)
    ensures r.Success? ==> r.value.pageSize == IntParamOr(query.limit, DefaultLimit)
    ensures r.Success? ==> r.value.total == |KeepMatching(read.value, SearchTerm(query.q))|
    ensures r.Success? ==> r.value.items == PageWindow(KeepMatching(read.value, SearchTerm(query.q)), r.value.page, r.value.pageSize)
    ensures r.Success? && r.value.page >= 1 && r.value.pageSize >= 1 ==> |r.value.items| <= r.value.pageSize
  {
    match read
    case Failure(e) => Failure(RouteError(None, e.message))
    case Success(data) =>
      var results := Search(data, SearchTerm(query.q));
      SearchIsFilter(data, SearchTerm(query.q));
      var page := IntParamOr(query.page, DefaultPage);
      var limit := IntParamOr(query.limit, DefaultLimit);
      PageWindowBound(results, page, limit);
      Success(ListBody(PageWindow(results, page, limit), |results|, page, limit))
  }

  /** A page of positive size holds at most that many results. */
  lemma PageWindowBound<T>(results: seq<T>, page: int, limit: int)
    ensures page >= 1 && limit >= 1 ==> |PageWindow(results, page, limit)| <= limit
  {
    if page >= 1 && limit >= 1 {
      PageWindowIsRange(results, page, limit);
    }
  }

  /** Missing, non-numeric and zero paging parameters give page 1 of 10. */
  lemma ListItemsDefaults(data: seq<Item>, q: Option<string>, page: Option<string>, limit: Option<string>)
    requires ParsedParam(page).None? || ParsedParam(page) == Some(0)
    requires ParsedParam(limit).None? || ParsedParam(limit) == Some(0)
    ensures ListItems(Success(data), ListQuery(q, page, limit)).value.page == 1
    ensures ListItems(Success(data), ListQuery(q, page, limit)).value.pageSize == 10
  {
  }

  /** Pages 1 to `k` of the results, one after another. */
  function Pages<T>(results: seq<T>, limit: int, k: nat): seq<T> {
    if k == 0 then [] else Pages(results, limit, k - 1) + PageWindow(results, k, limit)
  }

  /** Consecutive pages tile the results: pages 1 to `k` together are the
      first `k * limit` results, with nothing repeated or skipped. */
  lemma {:induction false} PagesArePrefix<T>(results: seq<T>, limit: int, k: nat)
    requires limit >= 1
    ensures Pages(results, limit, k) == results[..Min(k * limit, |results|)]
  {
    if k > 0 {
      PagesArePrefix(results, limit, k - 1);
      var lo := (k - 1) * limit;
      var hi := k * limit;
      JsNumber.NatProduct(k - 1, limit);
      NextPageStart(k, limit);
      PrefixThenWindow(results, lo, hi);
      PageWindowIsRange(results, k, limit);
    }
  }

  lemma NextPageStart(k: int, limit: int)
    ensures (k - 1) * limit + limit == k * limit
  {
  }

  lemma PrefixThenWindow<T>(s: seq<T>, lo: int, hi: int)
    requires 0 <= lo <= hi
    ensures s[..Min(lo, |s|)] + s[Min(lo, |s|)..Min(hi, |s|)] == s[..Min(hi, |s|)]
  {
  }

  /** A negative `limit` is not rejected: page 1 with `limit=-1` is every
      matching item but the last, reported with `pageSize` -1. */
  lemma NegativeLimitDropsLastMatch(data: seq<Item>)
    requires |data| >= 1
    ensures ListItems(Success(data), ListQuery(None, None, Some("-1"))).value ==
      ListBody(data[..|data| - 1], |data|, 1, -1)
  {
    ParseMinusOne();
    KeepMatchingEmptyTerm(data);
    FirstPageOfNegativeLimit(data);
  }

  lemma ParseMinusOne()
    ensures JsNumber.ParseInt("-1", JsNumber.Ten) == Some(-1)
  {
    JsNumber.ParseIntReadsDecimalString(-1, [], JsNumber.Ten);
    assert JsNumber.DecimalString(-1) + [] == "-1";
  }

  lemma FirstPageOfNegativeLimit<T>(s: seq<T>)
    requires |s| >= 1
    ensures PageWindow(s, 1, -1) == s[..|s| - 1]
  {
  }

  /** The index of the first item whose id is `id`, if any:
      `data.find(i => i.id === id)`. */
  function FindById(items: seq<Item>, id: int): (r: Option<nat>)
    ensures r.Some? ==> r.value < |items| && items[r.value].id == id
    ensures r.Some? ==> forall j :: 0 <= j < r.value ==> items[j].id != id
    ensures r.None? ==> forall j :: 0 <= j < |items| ==> items[j].id != id
  {
    if |items| == 0 then None
    else if items[0].id == id then Some(0)
    else match FindById(items[1..], id)
      case Some(k) => Some(k + 1)
      case None => None
  }

  /** The id of `GET /api/items/:id`, read by `parseInt` without a radix. */
  function ParsedId(idParam: string): Option<int> {
    JsNumber.ParseInt(idParam, JsNumber.Unspecified)
  }

  /** `GET /api/items/:id`: the first item with the parsed id, or an error
      with status 404 and message "Item not found". An id that is `NaN`
      equals no item's id. */
  function GetItem(read: Result<seq<Item>, IoError>, idParam: string): (r: Result<Item, RouteError>)
    ensures read.Failure? ==> r == Failure(RouteError(None, read.error.message))
    ensures read.Success? && r.Success? ==>
      exists k :: 0 <= k < |read.value| && read.value[k] == r.value
        && Some(r.value.id) == ParsedId(idParam)
        && forall j :: 0 <= j < k ==> Some(read.value[j].id) != ParsedId(idParam)
    ensures read.Success? && r.Failure? ==>
      && r.error == RouteError(Some(404), NotFoundMessage)
      && forall j :: 0 <= j < |read.value| ==> Some(read.value[j].id) != ParsedId(idParam)
  {
    match read
    case Failure(e) => Failure(RouteError(None, e.message))
    case Success(data) =>
      var found := match ParsedId(idParam)
        case Some(id) => FindById(data, id)
        case None => None;
      match found
      case Some(k) => Success(data[k])
      case None => Failure(RouteError(Some(404), NotFoundMessage))
  }

  /** An id that reads as `NaN` finds nothing, whatever the data: the
      answer is 404 "Item not found". */
  lemma NaNIdIsNotFound(data: seq<Item>, idParam: string)
    requires ParsedId(idParam).None?
    ensures GetItem(Success(data), idParam) == Failure(RouteError(Some(404), NotFoundMessage))
  {
  }

  /** What `POST /api/items` stored and answered (with status 201). */
  datatype Created = Created(stored: seq<Item>, item: Item)

  /** `POST /api/items`: the body gets the clock value `now` as its id and
      is appended to the list read from the file, which is written back. A
      failed read or write goes to `next(err)`. */
  function CreateItem(read: Result<seq<Item>, IoError>, body: Item, now: int, writeError: Option<IoError>)
    : (r: Result<Created, RouteError>)
    ensures read.Failure? ==> r == Failure(RouteError(None, read.error.message))
    ensures read.Success? && writeError.Some? ==> r == Failure(RouteError(None, writeError.value.message))
    ensures read.Success? && writeError.None? ==> r.Success?
    ensures r.Success? ==>
      && r.value.item == Item(now, body.name, body.category, body.price)
      && |r.value.stored| == |read.value| + 1
      && r.value.stored[..|read.value|] == read.value
      && r.value.stored[|read.value|] == r.value.item
  {
    match read
    case Failure(e) => Failure(RouteError(None, e.message))
    case Success(data) =>
      var item := body.(id := now);
      var stored := data + [item];
      assert stored[..|data|] == data;
      match writeError
      case Some(e) => Failure(RouteError(None, e.message))
      case None => Success(Created(stored, item))
  }

  /** A created item can be fetched by the id it was given, provided no
      older item already had that id (ids come from the clock and are not
      checked for uniqueness). */
  lemma CreatedItemIsFound(data: seq<Item>, body: Item, now: int)
    requires forall j :: 0 <= j < |data| ==> data[j].id != now
    ensures var c := CreateItem(Success(data), body, now, None);
      GetItem(Success(c.value.stored), JsNumber.DecimalString(now)) == Success(c.value.item)
  {
    var stored := data + [body.(id := now)];
    LookupFindsFirstWithId(stored, |data|);
  }

  /** `ListItems` on a successful read, spelled out stage by stage. */
  lemma ListItemsStages(data: seq<Item>, query: ListQuery, term: string, results: seq<Item>, page: int, limit: int)
    requires term == SearchTerm(query.q) && results == Search(data, term)
    requires page == IntParamOr(query.page, DefaultPage) && limit == IntParamOr(query.limit, DefaultLimit)
    ensures ListItems(Success(data), query) == Success(ListBody(PageWindow(results, page, limit), |results|, page, limit))
  {
  }

  /** With no parameters the first ten items come back as page 1 of 10,
      with the full count as `total`. */
  lemma NoParametersGiveFirstTen(data: seq<Item>)
    ensures ListItems(Success(data), ListQuery(None, None, None)) ==
      Success(ListBody(data[..Min(10, |data|)], |data|, 1, 10))
  {
    FirstPageAt(data, 10);
    ListItemsStages(data, ListQuery(None, None, None), [], data, 1, 10);
  }

  /** `limit=n` alone returns the first `n` items, with the full count as
      `total`. */
  lemma LimitGivesFirstItems(data: seq<Item>, n: int)
    requires n >= 1
    ensures ListItems(Success(data), ListQuery(None, None, Some(JsNumber.DecimalString(n)))) ==
      Success(ListBody(data[..Min(n, |data|)], |data|, 1, n))
  {
    var query := ListQuery(None, None, Some(JsNumber.DecimalString(n)));
    ParamRoundTrip(n, DefaultLimit);
    assert IntParamOr(query.page, DefaultPage) == 1;
    assert Search(data, SearchTerm(query.q)) == data;
    FirstPageAt(data, n);
    ListItemsStages(data, query, [], data, 1, n);
  }

  /** A non-zero page or limit written in decimal is read back as itself. */
  lemma ParamRoundTrip(n: int, fallback: int)
    requires n != 0
    ensures IntParamOr(Some(JsNumber.DecimalString(n)), fallback) == n
  {
    JsNumber.ParseIntReadsDecimalString(n, [], JsNumber.Ten);
    assert JsNumber.DecimalString(n) + [] == JsNumber.DecimalString(n);
  }

  lemma FirstPageAt<T>(s: seq<T>, n: int)
    requires n >= 1
    ensures PageWindow(s, 1, n) == s[..Min(n, |s|)]
  {
    PageWindowIsRange(s, 1, n);
  }

  /** Looking up the decimal text of an id returns the first item with
      that id. */
  lemma LookupFindsFirstWithId(data: seq<Item>, k: nat)
    requires k < |data|
    requires forall j :: 0 <= j < k ==> data[j].id != data[k].id
    ensures GetItem(Success(data), JsNumber.DecimalString(data[k].id)) == Success(data[k])
  {
    var n := data[k].id;
    JsNumber.ParseIntReadsDecimalString(n, [], JsNumber.Unspecified);
    assert JsNumber.DecimalString(n) + [] == JsNumber.DecimalString(n);
    var f := FindById(data, n);
    assert f == Some(k);
  }

  /** Looking up an id no item has is a 404 "Item not found". */
  lemma LookupMissingIsNotFound(data: seq<Item>, n: int)
    requires forall j :: 0 <= j < |data| ==> data[j].id != n
    ensures GetItem(Success(data), JsNumber.DecimalString(n)) == Failure(RouteError(Some(404), "Item not found"))
  {
    JsNumber.ParseIntReadsDecimalString(n, [], JsNumber.Unspecified);
    assert JsNumber.DecimalString(n) + [] == JsNumber.DecimalString(n);
  }
}

=== FILE: js_number.dfy ===
/** The number conversions the catalog relies on: `parseInt` for query and
    path parameters, and `String(n)` for the integers the client puts into a
    query string. Results are exact integers: the loss of precision of a
    double beyond 2^53 is not modelled. */
module JsNumber {
  import opened Wrappers

  /** ECMAScript's StrWhiteSpaceChar: WhiteSpace (TAB, VT, FF, ZWNBSP and
      the space separators of category Zs) and LineTerminator (LF, CR, LS,
      PS). */
  predicate IsStrWhiteSpace(c: char) {
    var n := c as int;
    || n == 0x09 || n == 0x0A || n == 0x0B || n == 0x0C || n == 0x0D
    || n == 0x20 || n == 0xA0 || n == 0x1680 || (0x2000 <= n <= 0x200A)
    || n == 0x2028 || n == 0x2029 || n == 0x202F || n == 0x205F
    || n == 0x3000 || n == 0xFEFF
  }

  /** Drops the leading white space: what remains is a suffix of `s` that
      does not start with white space, and everything dropped was white. */
  function TrimStart(s: string): (r: string)
    ensures |r| <= |s| && r == s[|s| - |r|..]
    ensures |r| == 0 || !IsStrWhiteSpace(r[0])
    ensures forall i :: 0 <= i < |s| - |r| ==> IsStrWhiteSpace(s[i])
  {
    if |s| > 0 && IsStrWhiteSpace(s[0]) then TrimStart(s[1..]) else s
  }

  /** The value of `c` as a digit in radix up to 36; 36 when `c` is no
      digit at all. */
  function DigitValue(c: char): (r: nat)
    ensures r <= 36
  {
    if '0' <= c <= '9' then c as int - '0' as int
    else if 'a' <= c <= 'z' then c as int - 'a' as int + 10
    else if 'A' <= c <= 'Z' then c as int - 'A' as int + 10
    else 36
  }

  /** The length of the longest prefix of `s` made of digits below `radix`. */
  function DigitRun(s: string, radix: nat): (n: nat)
    ensures n <= |s|
    ensures forall i :: 0 <= i < n ==> DigitValue(s[i]) < radix
    ensures n < |s| ==> DigitValue(s[n]) >= radix
  {
    if |s| > 0 && DigitValue(s[0]) < radix then 1 + DigitRun(s[1..], radix) else 0
  }

  /** The value of a digit string, most significant digit first. */
  function DigitsValue(s: string, radix: nat): nat
    requires forall i :: 0 <= i < |s| ==> DigitValue(s[i]) < radix
  {
    if |s| == 0 then 0
    else
      var init := s[..|s| - 1];
      assert forall i :: 0 <= i < |init| ==> init[i] == s[i];
      var high := DigitsValue(init, radix);
      NatProduct(high, radix);
      high * radix + DigitValue(s[|s| - 1])
  }

  /** A product of naturals is a natural. Digit values need it first; the
      routes' page offsets reuse it from here, the lowest module that needs
      it. */
  lemma NatProduct(a: nat, b: nat)
    ensures a * b >= 0
  {
  }

  /** `parseInt(s, 10)` (`Ten`) or `parseInt(s)` (`Unspecified`, which reads
      a `0x`/`0X` prefix as hexadecimal). */
  datatype Radix = Ten | Unspecified

  /** Splits an optional sign off the trimmed text: whether it was `-`, and
      the text after it. */
  function SplitSign(t: string): (bool, string) {
    if |t| > 0 && (t[0] == '-' || t[0] == '+') then (t[0] == '-', t[1..]) else (false, t)
  }

  /** Splits a `0x`/`0X` prefix off when no radix was given: the radix the
      digits are read in, and the text holding them. */
  function SplitRadixPrefix(u: string, radix: Radix): (nat, string) {
    if radix == Unspecified && |u| >= 2 && u[0] == '0' && (u[1] == 'x' || u[1] == 'X') then (16, u[2..])
    else (10, u)
  }

  /** Reads the leading digits of `v`; `None` when there are none. */
  function ReadDigits(v: string, base: nat, negative: bool): Option<int> {
    var n := DigitRun(v, base);
    if n == 0 then None
    else
      var digits := v[..n];
      assert forall i :: 0 <= i < |digits| ==> DigitValue(digits[i]) < base;
      var magnitude: int := DigitsValue(digits, base);
      Some(if negative then -magnitude else magnitude)
  }

  /** `parseInt` on a string; `None` stands for `NaN`. A parsed negative zero
      is the integer 0. */
  function ParseInt(s: string, radix: Radix): Option<int> {
    var (negative, u) := SplitSign(TrimStart(s));
    var (base, v) := SplitRadixPrefix(u, radix);
    ReadDigits(v, base, negative)
  }

  function DigitChar(d: nat): (c: char)
    requires d < 10
    ensures DigitValue(c) == d
  {
    ('0' as int + d) as char
  }

  /** The decimal digits of `n` without leading zeros; they read back as `n`. */
  function Digits(n: nat): (r: string)
    ensures |r| > 0
    ensures forall i :: 0 <= i < |r| ==> DigitValue(r[i]) < 10
    ensures DigitsValue(r, 10) == n
    ensures n > 0 ==> r[0] != '0'
  {
    if n < 10 then [DigitChar(n)]
    else
      var r := Digits(n / 10) + [DigitChar(n % 10)];
      assert r[..|r| - 1] == Digits(n / 10);
      r
  }

  /** `String(n)` for an integer `n` (of magnitude below 10^21, where
      JavaScript switches to exponent notation). */
  function DecimalString(n: int): string {
    if n < 0 then "-" + Digits(-n) else Digits(n)
  }

  /** A run of digits followed by a non-digit is read exactly up to its end. */
  lemma {:induction false} DigitRunStopsAtEnd(a: string, rest: string, radix: nat)
    requires forall i :: 0 <= i < |a| ==> DigitValue(a[i]) < radix
    requires |rest| == 0 || DigitValue(rest[0]) >= radix
    ensures DigitRun(a + rest, radix) == |a|
    decreases |a|
  {
    if |a| > 0 {
      assert (a + rest)[1..] == a[1..] + rest;
      DigitRunStopsAtEnd(a[1..], rest, radix);
    } else {
      assert a + rest == rest;
    }
  }

  /** The digits of `m` followed by a non-digit read back as `m`, signed. */
  lemma ReadDigitsOfDigits(m: nat, rest: string, negative: bool)
    requires |rest| == 0 || DigitValue(rest[0]) >= 10
    ensures ReadDigits(Digits(m) + rest, 10, negative) == Some(if negative then -(m as int) else m as int)
  {
    var d := Digits(m);
    DigitRunStopsAtEnd(d, rest, 10);
    assert (d + rest)[..|d|] == d;
  }

  /** `parseInt` reads back what `String` wrote, also when other text
      follows the number (as long as that text does not continue it). */
  lemma ParseIntReadsDecimalString(n: int, rest: string, radix: Radix)
    requires |rest| == 0 || DigitValue(rest[0]) >= 10
    requires radix == Unspecified && |rest| > 0 ==> rest[0] != 'x' && rest[0] != 'X'
    ensures ParseInt(DecimalString(n) + rest, radix) == Some(n)
  {
    var m: nat := if n < 0 then -n else n;
    var u := Digits(m) + rest;
    DecimalStringSign(n, rest);
    DigitsHaveNoRadixPrefix(m, rest, radix);
    ReadDigitsOfDigits(m, rest, n < 0);
  }

  /** `String(n)` starts with no white space, and its sign is split off
      as that of `n`. */
  lemma DecimalStringSign(n: int, rest: string)
    ensures var m: nat := if n < 0 then -n else n;
      var s := DecimalString(n) + rest;
      TrimStart(s) == s && SplitSign(s) == (n < 0, Digits(m) + rest)
  {
    if n < 0 {
      NegativeText(Digits(-n) + rest);
      assert DecimalString(n) + rest == "-" + (Digits(-n) + rest);
    } else {
      UnsignedText(Digits(n) + rest);
    }
  }

  lemma NegativeText(u: string)
    ensures TrimStart("-" + u) == "-" + u && SplitSign("-" + u) == (true, u)
  {
    assert ("-" + u)[1..] == u;
  }

  lemma UnsignedText(u: string)
    requires |u| > 0 && DigitValue(u[0]) < 10
    ensures TrimStart(u) == u && SplitSign(u) == (false, u)
  {
    assert !IsStrWhiteSpace(u[0]);
    assert TrimStart(u) == u;
  }

  /** Decimal digits never start a `0x` prefix: a `0` from `String` stands
      alone, and `rest` does not start with `x`. */
  lemma DigitsHaveNoRadixPrefix(m: nat, rest: string, radix: Radix)
    requires |rest| == 0 || DigitValue(rest[0]) >= 10
    requires radix == Unspecified && |rest| > 0 ==> rest[0] != 'x' && rest[0] != 'X'
    ensures SplitRadixPrefix(Digits(m) + rest, radix) == (10, Digits(m) + rest)
  {
    var d := Digits(m);
    var u := d + rest;
    assert u[0] == d[0];
    if |d| == 1 && |u| >= 2 {
      assert u[1] == rest[0];
    }
  }

  /** `parseInt` ignores leading white space. */
  lemma ParseIntSkipsWhiteSpace(c: char, s: string, radix: Radix)
    requires IsStrWhiteSpace(c)
    ensures ParseInt([c] + s, radix) == ParseInt(s, radix)
  {
    assert ([c] + s)[1..] == s;
  }

  lemma ReadHexDigits1A()
    ensures ReadDigits("1A", 16, false) == Some(26)
  {
    assert DigitRun("1A", 16) == 2 by {
      assert "1A"[1..] == "A";
      assert "A"[1..] == "";
    }
    assert "1A"[..2] == "1A" && "1A"[..1] == "1";
    assert DigitsValue("1", 16) == 1 by {
      assert "1"[..0] == "";
    }
  }

  /** Text starting with a decimal digit, and not with a `0x` prefix that
      `parseInt` would honour, is read as unsigned decimal digits. */
  lemma UnsignedDecimalText(s: string, radix: Radix)
    requires |s| > 0 && DigitValue(s[0]) < 10
    requires radix == Unspecified && |s| >= 2 && s[0] == '0' ==> s[1] != 'x' && s[1] != 'X'
    ensures ParseInt(s, radix) == ReadDigits(s, 10, false)
  {
    UnsignedText(s);
    assert SplitRadixPrefix(s, radix) == (10, s);
  }

  /** Without a radix, a `0x` or `0X` prefix makes the rest hexadecimal. */
  lemma HexPrefixText(s: string)
    requires |s| >= 2 && s[0] == '0' && (s[1] == 'x' || s[1] == 'X')
    ensures ParseInt(s, Unspecified) == ReadDigits(s[2..], 16, false)
  {
    UnsignedText(s);
  }

  /** Text that starts with neither white space, a sign nor a digit has no
      digits to read: `parseInt` gives `NaN`. */
  lemma ParseIntNoLeadingDigit(s: string, radix: Radix)
    requires |s| > 0 ==> !IsStrWhiteSpace(s[0]) && s[0] != '-' && s[0] != '+' && DigitValue(s[0]) >= 10
    ensures ParseInt(s, radix) == None
  {
    if |s| > 0 {
      assert TrimStart(s) == s;
    }
  }

  /** Without a radix, an id such as `"0x1A"` is read as hexadecimal. */
  lemma ParseIntHexWithoutRadix()
    ensures ParseInt("0x1A", Unspecified) == Some(26)
  {
    HexPrefixText("0x1A");
    assert "0x1A"[2..] == "1A";
    ReadHexDigits1A();
  }

  lemma ReadZeroBeforeX()
    ensures ReadDigits("0x1A", 10, false) == Some(0)
  {
    assert DigitRun("0x1A", 10) == 1 by {
      assert "0x1A"[1..] == "x1A";
      assert DigitValue('x') == 33;
    }
    assert "0x1A"[..1] == "0";
    assert DigitsValue("0", 10) == 0 by {
      assert "0"[..0] == "";
    }
  }

  /** With radix 10 the same text stops at the `x`. */
  lemma ParseIntDecimalStopsAtX()
    ensures ParseInt("0x1A", Ten) == Some(0)
  {
    UnsignedDecimalText("0x1A", Ten);
    ReadZeroBeforeX();
  }

  lemma ReadDecimalDigits42()
    ensures ReadDigits("42px", 10, true) == Some(-42)
  {
    assert DigitRun("42px", 10) == 2 by {
      assert "42px"[1..] == "2px";
      assert "2px"[1..] == "px";
    }
    assert "42px"[..2] == "42" && "42"[..1] == "4";
    assert DigitsValue("4", 10) == 4 by {
      assert "4"[..0] == "";
    }
  }

  /** Leading blanks and a sign are read, trailing text is ignored. */
  lemma ParseIntSignAndTrailingText()
    ensures ParseInt(" -42px", Ten) == Some(-42)
  {
    var t := TrimStart(" -42px");
    assert t == "-42px" by {
      assert " -42px"[1..] == "-42px";
      assert TrimStart("-42px") == "-42px";
    }
    assert SplitSign(t) == (true, "42px") by {
      assert "-42px"[1..] == "42px";
    }
    assert SplitRadixPrefix("42px", Ten) == (10, "42px");
    ReadDecimalDigits42();
  }

  /** Text without a leading digit is `NaN`. */
  lemma ParseIntNoDigits()
    ensures ParseInt("abc", Ten) == None
    ensures ParseInt("", Unspecified) == None
  {
    ParseIntNoLeadingDigit("abc", Ten);
    ParseIntNoLeadingDigit("", Unspecified);
  }
}

=== FILE: js_slice.dfy ===
/** `slice` as arrays and strings share it: bounds may be negative, counting
    from the end, and are clamped to the sequence. */
module JsSlice {

  function Min(a: int, b: int): int {
    if a < b then a else b
  }

  /** A bound of `slice`: a negative one counts from the
      end; both are clamped to `[0, len]`. */
  function RelativeIndex(k: int, len: nat): (r: nat)
    ensures r <= len
    ensures 0 <= k ==> r == Min(k, len)
    ensures k < 0 ==> r == if len + k < 0 then 0 else len + k
  {
    if k < 0 then (if len + k < 0 then 0 else len + k)
    else if k < len then k else len
  }

  /** `s.slice(start, end)`, for an array or a string. */
  function Slice<T>(s: seq<T>, start: int, end: int): (r: seq<T>)
    ensures |r| <= |s|
    ensures 0 <= start <= end ==> r == s[Min(start, |s|)..Min(end, |s|)]
  {
    var from := RelativeIndex(start, |s|);
    var to := RelativeIndex(end, |s|);
    if from < to then s[from..to] else []
  }

  /** `s.slice(-k)`: the last `k` elements, or all of a shorter `s`. */
  lemma SliceFromEnd<T>(s: seq<T>, k: nat)
    requires k > 0
    ensures Slice(s, -(k as int), |s|) == if |s| < k then s else s[|s| - k..]
  {
  }
}

=== FILE: js_string.dfy ===
/** The string operations of JavaScript that the catalog relies on:
    `toLowerCase` (restricted to ASCII letters), `includes`, and the UTF-16
    code units that `charCodeAt` reads. */
module JsString {
  import opened Wrappers

  /** Case folding of one character: `A`..`Z` become `a`..`z`, every other
      character is kept. */
  function LowerChar(c: char): char {
    if 'A' <= c <= 'Z' then (c as int + 32) as char else c
  }

  predicate IsUpperAscii(c: char) {
    'A' <= c <= 'Z'
  }

  /** `s.toLowerCase()`, character by character. */
  function Lower(s: string): (r: string)
    ensures |r| == |s|
    ensures forall i :: 0 <= i < |s| ==> r[i] == LowerChar(s[i])
    ensures forall i :: 0 <= i < |r| ==> !IsUpperAscii(r[i])
  {
    seq(|s|, i requires 0 <= i < |s| => LowerChar(s[i]))
  }

  /** Lowering twice is lowering once: a lowered query is its own lowered
      form, so lowering the needle and the haystack agree. */
  lemma LowerIdempotent(s: string)
    ensures Lower(Lower(s)) == Lower(s)
  {
    var t := Lower(s);
    assert forall i :: 0 <= i < |t| ==> Lower(t)[i] == t[i];
  }

  /** Lowering commutes with concatenation. */
  lemma LowerAppend(a: string, b: string)
    ensures Lower(a + b) == Lower(a) + Lower(b)
  {
    assert forall i :: 0 <= i < |a + b| ==> Lower(a + b)[i] == (Lower(a) + Lower(b))[i];
  }

  predicate StartsWith(s: string, prefix: string) {
    |prefix| <= |s| && s[..|prefix|] == prefix
  }

  /** `needle` occurs in `s` starting at offset `i`. */
  ghost predicate OccursAt(s: string, needle: string, i: int) {
    0 <= i && i + |needle| <= |s| && s[i..i + |needle|] == needle
  }

  /** `s.includes(needle)`: scan the offsets left to right. */
  function Includes(s: string, needle: string): (r: bool)
    ensures needle == [] ==> r
    decreases |s|
  {
    if StartsWith(s, needle) then true
    else if |s| == 0 then false
    else Includes(s[1..], needle)
  }

  /** `Includes` holds exactly when the needle occurs at some offset. */
  lemma {:induction false} IncludesIffOccurs(s: string, needle: string)
    ensures Includes(s, needle) <==> exists i :: OccursAt(s, needle, i)
    decreases |s|
  {
    if StartsWith(s, needle) {
      assert OccursAt(s, needle, 0);
    } else if |s| == 0 {
      assert |needle| > 0;
    } else {
      IncludesIffOccurs(s[1..], needle);
      if exists j :: OccursAt(s[1..], needle, j) {
        var j :| OccursAt(s[1..], needle, j);
        assert s[1..][j..j + |needle|] == s[j + 1..j + 1 + |needle|];
        assert OccursAt(s, needle, j + 1);
      }
      if exists i :: OccursAt(s, needle, i) {
        var i :| OccursAt(s, needle, i);
        assert i > 0;
        assert s[1..][i - 1..i - 1 + |needle|] == s[i..i + |needle|];
        assert OccursAt(s[1..], needle, i - 1);
      }
    }
  }

  /** A UTF-16 code unit, the value `charCodeAt` returns. */
  type CodeUnit = x: int | 0 <= x < 0x1_0000

  predicate IsHighSurrogate(u: int) {
    0xD800 <= u < 0xDC00
  }

  predicate IsLowSurrogate(u: int) {
    0xDC00 <= u < 0xE000
  }

  /** The UTF-16 encoding of one Unicode scalar value: one code unit inside
      the Basic Multilingual Plane, a surrogate pair above it. */
  function EncodeChar(c: char): (r: seq<CodeUnit>)
    ensures 1 <= |r| <= 2
    ensures |r| == 1 <==> (c as int) < 0x1_0000
    ensures |r| == 1 ==> !IsHighSurrogate(r[0]) && !IsLowSurrogate(r[0])
    ensures |r| == 2 ==> IsHighSurrogate(r[0]) && IsLowSurrogate(r[1])
  {
    var v := c as int;
    if v < 0x1_0000 then [v]
    else [0xD800 + (v - 0x1_0000) / 0x400, 0xDC00 + (v - 0x1_0000) % 0x400]
  }

  /** The code units JavaScript stores for `s`. */
  function Utf16(s: string): (r: seq<CodeUnit>)
    ensures |s| <= |r| <= 2 * |s|
  {
    if |s| == 0 then [] else EncodeChar(s[0]) + Utf16(s[1..])
  }

  /** Reads code units back into scalar values; `None` on an unpaired
      surrogate. The inverse of `Utf16`. */
  function DecodeUtf16(u: seq<CodeUnit>): (r: Option<string>)
    decreases |u|
  {
    if |u| == 0 then Some([])
    else if IsHighSurrogate(u[0]) then
      if |u| >= 2 && IsLowSurrogate(u[1]) then
        var v: int := 0x1_0000 + (u[0] as int - 0xD800) * 0x400 + (u[1] as int - 0xDC00);
        match DecodeUtf16(u[2..])
        case Some(rest) => Some([v as char] + rest)
        case None => None
      else None
    else if IsLowSurrogate(u[0]) then None
    else
      match DecodeUtf16(u[1..])
      case Some(rest) => Some([u[0] as char] + rest)
      case None => None
  }

  /** Encoding then decoding gives the string back: `Utf16` loses nothing. */
  lemma {:induction false} Utf16RoundTrip(s: string)
    ensures DecodeUtf16(Utf16(s)) == Some(s)
  {
    if |s| > 0 {
      Utf16RoundTrip(s[1..]);
      var e := EncodeChar(s[0]);
      var u := e + Utf16(s[1..]);
      if |e| == 1 {
        assert u[0] == s[0] as int;
        assert !IsHighSurrogate(u[0]) && !IsLowSurrogate(u[0]);
        assert u[0] as char == s[0];
        assert u[1..] == Utf16(s[1..]);
        assert [s[0]] + s[1..] == s;
      } else {
        assert u[2..] == Utf16(s[1..]);
        var v := s[0] as int;
        assert 0x1_0000 + (u[0] as int - 0xD800) * 0x400 + (u[1] as int - 0xDC00) == v;
        assert [s[0]] + s[1..] == s;
      }
    }
  }
}

=== FILE: stats_calc.dfy ===
/** `calculateStats` of the backend: the number of items and their average
    price rounded to two decimals. Prices are exact reals; the binary
    floating point of JavaScript is not modelled. */
module StatsCalc {
  import opened Wrappers
  import opened Catalog

  /** The body of `GET /api/stats`. */
  datatype Stats = Stats(total: nat, averagePrice: real)

  /** Magnitude from which `toFixed` stops rounding and prints the number as
      `String` would (10^21). */
  const FixedLimit: real := 1000000000000000000000.0

  function Abs(x: real): real {
    if x < 0.0 then -x else x
  }

  /** `x` is a whole number of hundredths. */
  predicate IsHundredths(x: real) {
    (x * 100.0).Floor as real == x * 100.0
  }

  /** `cur.price || 0`: a missing price counts as 0 (a price of 0 is falsy
      too, with the same effect). */
  function PriceOrZero(item: Item): real {
    item.price.GetOr(0.0)
  }

  /** `items.reduce((acc, cur) => acc + (cur.price || 0), 0)`, folding from
      the left. */
  function SumPrices(items: seq<Item>): real {
    if |items| == 0 then 0.0 else SumPrices(items[..|items| - 1]) + PriceOrZero(items[|items| - 1])
  }

  /** Rounds a non-negative magnitude to hundredths, halves upwards. */
  function RoundUpHalf(m: real): (r: real)
    requires m >= 0.0
    ensures r >= 0.0
    ensures IsHundredths(r)
    ensures -0.005 < r - m <= 0.005
  {
    var n := (m * 100.0 + 0.5).Floor;
    assert n as real <= m * 100.0 + 0.5 < n as real + 1.0;
    assert (n as real / 100.0) * 100.0 == n as real;
    n as real / 100.0
  }

  lemma NegatedHundredths(m: real)
    requires IsHundredths(m)
    ensures IsHundredths(-m)
  {
    var k := (m * 100.0).Floor;
    assert (-m) * 100.0 == (-k) as real;
  }

  /** `parseFloat(x.toFixed(2))`: below 10^21 in magnitude, the nearest
      multiple of 0.01 with halves rounded away from zero (the sign is set
      aside first); from 10^21 on `toFixed` prints the number itself. */
  function RoundHundredths(x: real): (r: real)
    ensures Abs(x) >= FixedLimit ==> r == x
    ensures Abs(x) < FixedLimit ==> IsHundredths(r) && Abs(r - x) <= 0.005
    ensures Abs(x) < FixedLimit && Abs(r - x) == 0.005 ==> Abs(r) > Abs(x)
    ensures x >= 0.0 ==> r >= 0.0
    ensures x <= 0.0 ==> r <= 0.0
  {
    if Abs(x) >= FixedLimit then x
    else if x < 0.0 then
      var m := RoundUpHalf(-x);
      NegatedHundredths(m);
      -m
    else RoundUpHalf(x)
  }

  /** The rounded value is the nearest multiple of 0.01: no other hundredth
      is strictly closer. */
  lemma RoundIsNearest(x: real, n: int)
    requires Abs(x) < FixedLimit
    ensures Abs(RoundHundredths(x) - x) <= Abs(n as real / 100.0 - x)
  {
    var r := RoundHundredths(x);
    var k := (r * 100.0).Floor;
    assert r == k as real / 100.0;
    if n != k {
      assert Abs(n as real - k as real) >= 1.0;
      assert Abs(n as real / 100.0 - r) >= 0.01;
    }
  }

  lemma RoundUpHalfKeepsHundredths(m: real)
    requires m >= 0.0 && IsHundredths(m)
    ensures RoundUpHalf(m) == m
  {
    var k := (m * 100.0).Floor;
    assert m * 100.0 + 0.5 == k as real + 0.5;
    assert (k as real + 0.5).Floor == k;
  }

  /** A whole number of hundredths is left as it is. */
  lemma RoundKeepsHundredths(h: real)
    requires IsHundredths(h)
    ensures RoundHundredths(h) == h
  {
    if Abs(h) < FixedLimit {
      if h < 0.0 {
        NegatedHundredths(h);
        RoundUpHalfKeepsHundredths(-h);
      } else {
        RoundUpHalfKeepsHundredths(h);
      }
    }
  }

  /** Rounding twice is rounding once. */
  lemma RoundIdempotent(x: real)
    ensures RoundHundredths(RoundHundredths(x)) == RoundHundredths(x)
  {
    var r := RoundHundredths(x);
    if Abs(x) < FixedLimit {
      RoundKeepsHundredths(r);
    }
  }

  /** Rounding is symmetric about 0: halves go away from zero on both sides. */
  lemma RoundOdd(x: real)
    ensures RoundHundredths(-x) == -RoundHundredths(x)
  {
  }

  /** Halves are rounded away from zero. */
  lemma RoundHalvesAwayFromZero()
    ensures RoundHundredths(0.125) == 0.13
    ensures RoundHundredths(-0.125) == -0.13
  {
    assert (13.0).Floor == 13;
  }

  /** A larger number never rounds to a smaller one. */
  lemma RoundMonotone(x: real, y: real)
    requires x <= y
    ensures RoundHundredths(x) <= RoundHundredths(y)
  {
    if Abs(x) < FixedLimit && Abs(y) < FixedLimit {
      if 0.0 <= x {
        RoundMonotoneNonNegative(x, y);
      } else if y <= 0.0 {
        RoundMonotoneNonNegative(-y, -x);
        RoundOdd(x);
        RoundOdd(y);
      }
    }
  }

  lemma RoundMonotoneNonNegative(x: real, y: real)
    requires 0.0 <= x <= y < FixedLimit
    ensures RoundHundredths(x) <= RoundHundredths(y)
  {
    assert (x * 100.0 + 0.5).Floor <= (y * 100.0 + 0.5).Floor;
  }

  /** `calculateStats(items)`; `None` is a `null` file content. */
  function CalculateStats(items: Option<seq<Item>>): (r: Stats)
    ensures items.None? ==> r == Stats(0, 0.0)
    ensures items.Some? ==> r.total == |items.value|
    ensures items.Some? && |items.value| == 0 ==> r.averagePrice == 0.0
    ensures items.Some? && |items.value| > 0 ==>
      var mean := SumPrices(items.value) / |items.value| as real;
      && (Abs(mean) < FixedLimit ==> IsHundredths(r.averagePrice) && Abs(r.averagePrice - mean) <= 0.005)
      && (Abs(mean) < FixedLimit && Abs(r.averagePrice - mean) == 0.005 ==> Abs(r.averagePrice) > Abs(mean))
      && (Abs(mean) >= FixedLimit ==> r.averagePrice == mean)
  {
    match items
    case None => Stats(0, 0.0)
    case Some(xs) =>
      if |xs| == 0 then Stats(0, 0.0)
      else
        var total := |xs|;
        var totalPrice := SumPrices(xs);
        var averagePrice := if total > 0 then totalPrice / total as real else 0.0;
        Stats(total, RoundHundredths(averagePrice))
  }

  /** Items without prices add nothing to the sum. */
  lemma {:induction false} SumWithoutPricesIsZero(items: seq<Item>)
    requires forall i :: 0 <= i < |items| ==> items[i].price.None?
    ensures SumPrices(items) == 0.0
  {
    if |items| > 0 {
      SumWithoutPricesIsZero(items[..|items| - 1]);
    }
  }

  /** When no item has a price, the average is 0. */
  lemma NoPricesAverageZero(items: seq<Item>)
    requires forall i :: 0 <= i < |items| ==> items[i].price.None?
    ensures CalculateStats(Some(items)).averagePrice == 0.0
  {
    SumWithoutPricesIsZero(items);
  }

  /** The sum of prices lies between `n * lo` and `n * hi` when every
      counted price does. */
  lemma {:induction false} SumPricesBounds(items: seq<Item>, lo: real, hi: real)
    requires forall i :: 0 <= i < |items| ==> lo <= PriceOrZero(items[i]) <= hi
    ensures |items| as real * lo <= SumPrices(items) <= |items| as real * hi
  {
    if |items| > 0 {
      var n := |items|;
      SumPricesBounds(items[..n - 1], lo, hi);
      assert (n - 1) as real * lo + lo == n as real * lo;
      assert (n - 1) as real * hi + hi == n as real * hi;
    }
  }

  lemma QuotientBounds(s: real, n: real, lo: real, hi: real)
    requires n > 0.0
    requires n * lo <= s <= n * hi
    ensures lo <= s / n <= hi
  {
    var q := s / n;
    assert q * n == s;
  }

  /** The average lies within the range of the prices: when every price
      (a missing one counting as 0) is between two hundredths `lo` and `hi`,
      so is the rounded average. */
  lemma AverageWithinPriceRange(items: seq<Item>, lo: real, hi: real)
    requires |items| > 0
    requires IsHundredths(lo) && IsHundredths(hi)
    requires forall i :: 0 <= i < |items| ==> lo <= PriceOrZero(items[i]) <= hi
    ensures lo <= CalculateStats(Some(items)).averagePrice <= hi
  {
    var n := |items| as real;
    SumPricesBounds(items, lo, hi);
    var mean := SumPrices(items) / n;
    QuotientBounds(SumPrices(items), n, lo, hi);
    RoundMonotone(lo, mean);
    RoundMonotone(mean, hi);
    RoundKeepsHundredths(lo);
    RoundKeepsHundredths(hi);
  }

  /** Prices 10 and 20 average 15. */
  lemma TenAndTwentyAverageFifteen()
    ensures CalculateStats(Some([Item(1, "a", "c", Some(10.0)), Item(2, "b", "c", Some(20.0))])) == Stats(2, 15.0)
  {
    var xs := [Item(1, "a", "c", Some(10.0)), Item(2, "b", "c", Some(20.0))];
    assert xs[..1][..0] == [];
    assert SumPrices(xs) == 30.0;
    assert (1500.5).Floor == 1500;
  }

  /** Prices 10.00 and 10.01 average exactly 10.005, a half, which goes up. */
  lemma TieAverageRoundsUp()
    ensures CalculateStats(Some([Item(1, "a", "c", Some(10.0)), Item(2, "b", "c", Some(10.01))])) == Stats(2, 10.01)
  {
    var xs := [Item(1, "a", "c", Some(10.0)), Item(2, "b", "c", Some(10.01))];
    assert xs[..1][..0] == [];
    assert SumPrices(xs) == 20.01;
    assert (1001.0).Floor == 1001;
  }
}

=== FILE: stats_route.dfy ===
/** The `/api/stats` router: a process-wide cache of `calculateStats`
    keyed by the data file's modification time. The file system enters as
    the outcomes of `getFileStats`, `readFile` and `JSON.parse`. */
module StatsRoute {
  import opened Wrappers
  import opened Catalog
  import opened StatsCalc

  /** A modification time as `Date.getTime()` reports it. */
  type Time = int

  /** `statsCache`: the cached stats, the file time they were computed
      for, and the flag `refreshStats` raises while it works. */
  datatype CacheState = CacheState(data: Option<Stats>, lastModified: Option<Time>, calculating: bool)

  const Initial := CacheState(None, None, false)

  /** What the modification-time lookup inside `isCacheValid`'s `try`
      produced: a time, `null` (`getFileStats` caught a failed `stat`), or
      an exception. */
  datatype MtimeLookup = Mtime(time: Time) | NoMtime | LookupThrew

  /** `readFile` followed by `JSON.parse`: the parsed document (`None` for
      a `null` one) or the error either of them threw. */
  datatype FileRead = Parsed(items: Option<seq<Item>>) | ReadFailed(error: IoError)

  /** The cache after a call, and what the call returned (`Success(None)`
      is `null`) or threw. */
  datatype Outcome = Outcome(state: CacheState, result: Result<Option<Stats>, IoError>)

  /** `isCacheValid`: both cached fields present and the file's current
      time known and equal to the cached one. */
  predicate IsCacheValid(s: CacheState, lookup: MtimeLookup) {
    if s.data.None? || s.lastModified.None? then false
    else match lookup
      case Mtime(t) => t == s.lastModified.value
      case NoMtime => false
      case LookupThrew => false
  }

  /** The cache is valid exactly when it holds stats and the lookup reports
      the time they were computed for; a missing time or a throwing lookup
      is a miss. */
  lemma CacheValidIff(s: CacheState, lookup: MtimeLookup)
    ensures IsCacheValid(s, lookup) <==>
      s.data.Some? && s.lastModified.Some? && lookup == Mtime(s.lastModified.value)
  {
  }

  /** `refreshStats`: returns the current (possibly `null`) stats when a
      refresh is already marked as running; otherwise reads the file, takes
      its time (`mtime`, `None` when `getFileStats` returned `null`), stores
      both, and returns the new stats. The `finally` clears `calculating`
      on every exit of the `try`. */
  function RefreshStats(s: CacheState, read: FileRead, mtime: Option<Time>): (r: Outcome)
    ensures s.calculating ==> r == Outcome(s, Success(s.data))
    ensures !s.calculating ==> !r.state.calculating
    ensures !s.calculating && read.Parsed? ==>
      && r.state.data == Some(CalculateStats(read.items))
      && r.state.lastModified == mtime
      && r.result == Success(r.state.data)
    ensures read.ReadFailed? ==> r.state.data == s.data && r.state.lastModified == s.lastModified
    ensures !s.calculating && read.ReadFailed? ==> r.result == Failure(read.error)
  {
    if s.calculating then Outcome(s, Success(s.data))
    else
      var running := s.(calculating := true);
      match read
      case ReadFailed(e) => Outcome(running.(calculating := false), Failure(e))
      case Parsed(items) =>
        var stats := CalculateStats(items);
        Outcome(CacheState(Some(stats), mtime, false), Success(Some(stats)))
  }

  /** `GET /api/stats`: the cached stats on a hit, a refresh otherwise. */
  function GetStats(s: CacheState, lookup: MtimeLookup, read: FileRead, mtime: Option<Time>): (r: Outcome)
    ensures IsCacheValid(s, lookup) ==> r == Outcome(s, Success(s.data)) && s.data.Some?
    ensures !IsCacheValid(s, lookup) ==> r == RefreshStats(s, read, mtime)
  {
    if IsCacheValid(s, lookup) then Outcome(s, Success(s.data))
    else RefreshStats(s, read, mtime)
  }

  /** A refresh that could not learn the file's time leaves a cache that
      misses on the next request, whatever that request's lookup says. */
  lemma RefreshWithoutMtimeMisses(s: CacheState, items: Option<seq<Item>>, lookup: MtimeLookup)
    requires !s.calculating
    ensures !IsCacheValid(RefreshStats(s, Parsed(items), None).state, lookup)
  {
  }

  /** After a request that read the file, or hit the cache, a second
      request whose file time is unchanged since the last refresh is a hit:
      it returns the same stats without reading the file (its outcome does
      not depend on what a read would give). */
  lemma RepeatedGetHits(s: CacheState, l1: MtimeLookup, items: Option<seq<Item>>, t: Time,
                        read2: FileRead, mtime2: Option<Time>)
    requires !s.calculating
    ensures var o1 := GetStats(s, l1, Parsed(items), Some(t));
      && o1.state.lastModified.Some?
      && GetStats(o1.state, Mtime(o1.state.lastModified.value), read2, mtime2) == Outcome(o1.state, o1.result)
  {
  }

  /** A file whose time moved on is recomputed from its new contents. */
  lemma ChangedFileIsRecomputed(s: CacheState, t: Time, items: Option<seq<Item>>, mtime: Option<Time>)
    requires !s.calculating
    requires s.lastModified != Some(t)
    ensures GetStats(s, Mtime(t), Parsed(items), mtime).result == Success(Some(CalculateStats(items)))
  {
  }

  /** A failed refresh keeps the previous stats and time and clears the
      flag; the error goes to the caller. */
  lemma FailedRefreshKeepsSnapshot(s: CacheState, lookup: MtimeLookup, e: IoError, mtime: Option<Time>)
    requires !s.calculating && !IsCacheValid(s, lookup)
    ensures GetStats(s, lookup, ReadFailed(e), mtime) == Outcome(s, Failure(e))
  {
  }

  /** While a refresh is marked as running, a request that misses gets the
      stats stored so far, which are `null` before the first refresh
      completes; nothing waits for the running refresh. */
  lemma MissDuringRefreshServesCurrentData(s: CacheState, lookup: MtimeLookup, read: FileRead, mtime: Option<Time>)
    requires s.calculating && !IsCacheValid(s, lookup)
    ensures GetStats(s, lookup, read, mtime) == Outcome(s, Success(s.data))
    ensures s.data.None? ==> GetStats(s, lookup, read, mtime).result == Success(None)
  {
  }

  /** The data file as the routes see it at one moment. */
  datatype Disk = Disk(items: Option<seq<Item>>, mtime: Time)

  /** A request served against an unchanging file: every lookup and read
      sees the same contents and time. */
  function ServeFrom(s: CacheState, d: Disk): Outcome {
    GetStats(s, Mtime(d.mtime), Parsed(d.items), Some(d.mtime))
  }

  /** Cached stats recorded for the file's current time are the stats of
      its current contents. */
  predicate Coherent(s: CacheState, d: Disk) {
    s.data.Some? && s.lastModified == Some(d.mtime) ==> s.data.value == CalculateStats(d.items)
  }

  /** What happens to the file between requests. */
  datatype Event = Request | Write(items: Option<seq<Item>>, time: Time)

  /** Every write moves the file's time forward. */
  predicate IncreasingWrites(d: Disk, events: seq<Event>)
    decreases |events|
  {
    |events| == 0 ||
      match events[0]
      case Request => IncreasingWrites(d, events[1..])
      case Write(items, t) => t > d.mtime && IncreasingWrites(Disk(items, t), events[1..])
  }

  /** Every request in `events`, served in order, returns the stats of the
      file's contents at that moment. */
  predicate AllResponsesFresh(s: CacheState, d: Disk, events: seq<Event>)
    decreases |events|
  {
    |events| == 0 ||
      match events[0]
      case Request =>
        var o := ServeFrom(s, d);
        o.result == Success(Some(CalculateStats(d.items))) && AllResponsesFresh(o.state, d, events[1..])
      case Write(items, t) => AllResponsesFresh(s, Disk(items, t), events[1..])
  }

  /** Requests handled one at a time never see a stale or `null` result, as
      long as every write gives the file a later modification time. */
  lemma {:induction false} ServesFreshStats(s: CacheState, d: Disk, events: seq<Event>)
    requires !s.calculating && Coherent(s, d)
    requires s.lastModified.Some? ==> s.lastModified.value <= d.mtime
    requires IncreasingWrites(d, events)
    ensures AllResponsesFresh(s, d, events)
    decreases |events|
  {
    if |events| > 0 {
      match events[0]
      case Request =>
        var o := ServeFrom(s, d);
        ServesFreshStats(o.state, d, events[1..]);
      case Write(items, t) =>
        ServesFreshStats(s, Disk(items, t), events[1..]);
    }
  }

  /** The process starts with a cache every file is coherent with. */
  lemma InitialServesFreshStats(d: Disk, events: seq<Event>)
    requires IncreasingWrites(d, events)
    ensures AllResponsesFresh(Initial, d, events)
  {
    ServesFreshStats(Initial, d, events);
  }

  /** A write that leaves the modification time unchanged (two writes within
      the clock's resolution) is not noticed: the old stats are served. */
  lemma SameTimeWriteServesOldStats(d: Disk, items: Option<seq<Item>>)
    requires CalculateStats(items) != CalculateStats(d.items)
    ensures var s1 := ServeFrom(Initial, d).state;
      ServeFrom(s1, Disk(items, d.mtime)).result != Success(Some(CalculateStats(items)))
  {
  }
}

=== FILE: wrappers.dfy ===
/** `Option` for values JavaScript may leave `null`/`undefined`, `Result`
    for operations that can throw. */
module Wrappers {

  datatype Option<+T> = None | Some(value: T) {

    /** The value held, or the fallback `default` for a missing one. */
    function GetOr(default: T): T {
      match this
      case Some(v) => v
      case None => default
    }
  }

  datatype Result<+R, +E> = Success(value: R) | Failure(error: E)
}
